=== FILE: README.md ===
# Oi360 Document Suite — a Dafny model of its decision logic

The Oi360 Document Suite is a PyQt desktop application. It splits, merges and converts PDF and image files. Most of its code is widget glue around PDF and imaging libraries. The event handlers, though, contain small decision procedures, and those are what this project models and proves things about:

- **PDF splitting** (`split_pdf_by_ranges`). Each 1-based inclusive page range becomes one output document. The output holds the pages that exist in the source, in page order. The run stops with `False` at the first output that cannot be written.
- **The PDF splitter panel** (`split_pdf`, `handle_tab`). It covers:
  - skipping rows;
  - two-step output naming with a `ddMMyyyy` date stamp;
  - aborting on a duplicate name or on a start after its end;
  - the Tab key that adds the next row;
  - the table reset after a successful split.
- **The TIFF splitter panel** (`split_tiff`, `handle_tab`, `remove_row`, `load_tiff`). It covers:
  - reading the range table and naming the outputs;
  - writing a single-frame file, a multi-page TIFF, or one file per frame named `<base>_pNNN.<ext>`;
  - the delete button, which always leaves one row;
  - frame counting.
- **The flow layout of the PDF merger** (`FlowLayout`). Items are placed left to right and wrap when they would cross the right edge. The model covers the height it reports, `itemAt`/`takeAt` and the minimum size.
- **The PDF merger** (`PageItem.rotate_page`, `MergerGUI`). It covers:
  - quarter-turn rotations modulo 360;
  - the checkbox toggles;
  - the drop filter;
  - the write plan, which takes the ticked pages in grid order and calls `rotate` only where a rotation is set;
  - the rotation a page selected twice carries, because every copy of it shares one cached page object;
  - clearing the grid.
- **The selectable preview label** (`SelectablePreviewLabel`). It covers:
  - normalising the drag corners, clamping them to the pixmap and scaling by the zoom;
  - rejecting degenerate drags;
  - the 5-by-5 minimum on release;
  - the handlers as written, where a corner at the null point `(0, 0)` counts as missing, next to the intended versions;
  - switching selection mode off.
- **The page preview window** (`PagePreviewWindow`). It covers:
  - checkbox states surviving a zoom re-render;
  - grid cells;
  - the rule that only one region is held, as a (region, page) pair;
  - the count label;
  - the submit rule.
- **The PDF-to-Office panel and worker** (`on_pages_selected`, `ConversionWorker`). It covers:
  - the summary label;
  - which pages are read and which one is cropped;
  - how page texts are joined;
  - the Excel "accuracy" figure;
  - the blank-text guard of the similarity score.
- **The image merger** (`ImageMergerGUI`). It covers:
  - the drop filter;
  - the substitution of `<path>_temp.jpg` copies for RGBA, P and LA images;
  - the temporary copies that are removed after a write, or left behind when an image does not open, a copy cannot be saved or the PDF cannot be written;
  - clearing the list.

Documents, images and widgets are abstract here:

- A PDF or TIFF is a sequence of opaque pages or frames.
- An image is its Pillow mode, or `None` when it does not open.
- Dialog answers, file-system success and library results are parameters of the operations.

Python's string operations are written out in `PyText`: `strip`, `lower`, `endswith`, `rsplit('.', 1)[0]`, `str(n)`, `int(s)`, `f"{n:03d}"`, `join` and `split`.

Files:

- `optional.dfy`: the `Option` type and `Max`/`Min`.
- `text.dfy`: `PyText` and the `ddMMyyyy` date stamp.
- `pdf_splitter.dfy`, `splitter_table.dfy`, `image_splitter.dfy`: the two splitters.
- `flow_layout.dfy`, `merger.dfy`: the PDF merger.
- `selection.dfy`, `preview.dfy`, `conversion.dfy`: the PDF-to-Office path.
- `image_merger.dfy`: the image merger.

## Model

| member | source | states |
|---|---|---|
| PdfSplitter.IndicesFrom | pdf_utils/splitter.py:10-11 | The visited indices are consecutive from the range start, all below the page count, and there are `max(0, min(end, n) - from)` of them. |
| PdfSplitter.PageIndices | pdf_utils/splitter.py:10-12 | For a range with start ≥ 1, the copied indices are `start-1, start, …`, each inside the document. Their number is `max(0, min(end, n) - start + 1)`. |
| PdfSplitter.RangePages | pdf_utils/splitter.py:10-12 | The pages copied for a range are `doc[start-1], doc[start], …`, as many as `max(0, min(end, n) - start + 1)`. |
| PdfSplitter.RangePagesIsSlice | pdf_utils/splitter.py:10-12 | The pages written for a range are exactly the slice of the document from `start-1` to the end of the range or of the document. |
| PdfSplitter.EmptyWhenStartAfterEnd | pdf_utils/splitter.py:10 | A range whose start lies after its end yields an output with no pages. |
| PdfSplitter.WriteRanges | pdf_utils/splitter.py:8-18 | Output k is range k's name with range k's pages, in range order. The run succeeds iff every file opens. On failure it stops at the first file that does not open, and the outputs before it are kept. |
| PdfSplitter.SplitPdfByRanges | pdf_utils/splitter.py:4-18 | An unreadable source gives no output and `False`. Otherwise success iff every output is written, and then there is exactly one output per range, under that range's name, with its pages. |
| SplitterTable.SpinValue | gui/splitter_gui.py:68-70 | The value a spin box holds lies in its range, and an in-range value is kept unchanged. |
| SplitterTable.OutputNameIsBasePlusStamp | gui/splitter_gui.py:150-151 | Adding ".pdf" when it is absent in any case, then cutting at the last dot, gives the name without a ".pdf" suffix, then `_<stamp>.pdf`. |
| SplitterTable.OutputName | gui/splitter_gui.py:150-151 | Every output name ends in `_<stamp>.pdf`. |
| SplitterTable.PdfSuffixShape | gui/splitter_gui.py:150 | A name ending in ".pdf" in any letter case has its last dot exactly four characters from the end. |
| SplitterTable.Kept | gui/splitter_gui.py:142-149 | The rows that take part in the split are at most the table's rows, and each carries a valid 1-based row number. |
| SplitterTable.KeptPrefix | gui/splitter_gui.py:142-156 | The rows kept from a prefix of the table are a prefix of those kept from the whole table. |
| SplitterTable.KeptAt | gui/splitter_gui.py:142-156 | A row that is not skipped appears in the kept list right after the rows kept before it, with its row number and output name. |
| SplitterTable.SkipStep | gui/splitter_gui.py:147-149 | A row with a missing widget, a blank trimmed name or an end of 0 adds nothing. |
| SplitterTable.DuplicateAbort | gui/splitter_gui.py:152-153 | When a row's output name was already given out, the kept list has that duplicate and is not clean. |
| SplitterTable.StartAfterEndAbort | gui/splitter_gui.py:154-155 | A new name whose start exceeds its end marks that 1-based row number as the error, and the kept list is not clean. |
| SplitterTable.AcceptStep | gui/splitter_gui.py:156 | An accepted row keeps the list clean and appends its range and its name to the ranges and the used names. |
| SplitterTable.CollectRanges | gui/splitter_gui.py:134-156 | `NoPdfSelected` is reported exactly when no PDF is loaded. Otherwise the table is accepted iff its kept rows have pairwise distinct names and start ≤ end, and then the ranges are the kept rows in table order. A reported duplicate or start-after-end error is the first such violation. |
| SplitterTable.NextRowStart | gui/splitter_gui.py:73-77 | Tab adds a row iff the end is nonzero and, with a known page total, below it. The new row starts at `end + 1`, which is never past the total. |
| SplitterTable.TabPressed | gui/splitter_gui.py:66-79 | Without the rule the table is unchanged. With it, exactly one row is appended after the existing ones, starting at `end + 1` (kept within the spin range), with no name. |
| SplitterTable.SplitPdf | gui/splitter_gui.py:133-187 | The split runs exactly when a PDF is loaded and the kept rows are clean. With a PDF loaded, the only errors are a duplicate name and a start after an end. An error leaves the table as it was. A run hands the clean kept ranges, all starting at page 1 or later, to the splitter. The table resets to a single row starting at page 1 exactly when the split succeeds. |
| SplitterTable.KeptStarts | gui/splitter_gui.py:68 | Every range handed to the splitter starts at page 1 or later, because of the spin box minimum. |
| ImageSplitter.Extension | gui/image_splitter_gui.py:342-344 | The extension is png, jpg or tif: three letters, no dot, png for an unknown format. |
| ImageSplitter.OutNameShape | gui/image_splitter_gui.py:351-355 | An output name ends in `.<ext>`, and cutting that off leaves the name without its old extension, followed by `_<stamp>`. |
| ImageSplitter.OutName | gui/image_splitter_gui.py:351-355 | Every output name ends in `_<stamp>.<ext>`. |
| ImageSplitter.CollectRanges | gui/image_splitter_gui.py:346-360 | No range is collected iff no row has a non-blank trimmed name and an end above 0. |
| ImageSplitter.CollectAppend | gui/image_splitter_gui.py:346-360 | The rows of two stacked tables contribute their ranges in turn: first those of the top table, then those of the bottom one. |
| ImageSplitter.CollectSingle | gui/image_splitter_gui.py:350-360 | A row contributes its range exactly when it is used. |
| ImageSplitter.CollectedAt | gui/image_splitter_gui.py:346-360 | A used row's range comes right after the ranges of the rows above it. An unused row contributes nothing. |
| ImageSplitter.CollectedFrom | gui/image_splitter_gui.py:346-356 | Every collected range comes from a used row: same start, same end, that row's output name. |
| ImageSplitter.CollectedStarts | gui/image_splitter_gui.py:238 | Collected ranges start at page 1 or later, because of the start spin box range. |
| ImageSplitter.FrameNameRoundTrip | gui/image_splitter_gui.py:406-409 | A per-frame name is `<base>_p<digits>.<ext>`. The digits are at least three long and read back as the 1-based frame number. |
| ImageSplitter.FrameName | gui/image_splitter_gui.py:407-409 | A per-frame name starts with the base and ends in `.<ext>`. |
| ImageSplitter.FrameNamesDistinct | gui/image_splitter_gui.py:406-409 | Two different frames of one range never get the same file name. |
| ImageSplitter.FrameRange | gui/image_splitter_gui.py:392 | The frames `from … to-1`, in order. |
| ImageSplitter.RangeFiles | gui/image_splitter_gui.py:373-418 | The seeks succeed iff the range is empty or ends within the TIFF. A one-page range writes one file for frame `start-1`. A TIFF range writes one file holding frames `start-1 … end-1`, or none when empty. Otherwise one file per existing frame, named `<base>_pNNN.<ext>`. A file is converted to RGB iff the format is JPEG and its frame's mode is RGBA, P or LA. |
| ImageSplitter.SplitRanges | gui/image_splitter_gui.py:367-423 | All ranges are written iff every range can be seeked. The files of the first range come first. When the first range succeeds, the remaining files are those of the remaining ranges. |
| ImageSplitter.CollectedRangesOk | gui/image_splitter_gui.py:346-356 | The collected ranges can all be seeked iff every used row can. |
| ImageSplitter.SplitTiff | gui/image_splitter_gui.py:334-423 | No TIFF gives an error. No used row gives a warning. The files are saved iff a folder was chosen, the TIFF opened and every used row lies within its frames. An unreadable TIFF writes nothing. A saved run's files are those of the collected ranges, in order. |
| ImageSplitter.TabPressed | gui/image_splitter_gui.py:261-269 | The same next-row rule as the PDF splitter. The added row has its end blank (0) and no name. |
| ImageSplitter.RemoveRow | gui/image_splitter_gui.py:300-302 | A row is removed only while more than one remains, and the last row is never removed. The other rows keep their order. |
| ImageSplitter.CountFrames | gui/image_splitter_gui.py:317-322 | Counting up until a seek fails reports the number of frames, and one for an image reported as empty. |
| FlowLayout.Advance | main.py:107-118 | After an item, x is its left edge plus its width plus spacing, y is its top, and the line height is at least its height. |
| FlowLayout.Run | main.py:98-118 | One position per item. An empty layout leaves the cursor at the rectangle's top-left corner. |
| FlowLayout.RunPrefix | main.py:103-117 | Placing more items never moves the ones already placed, so items are placed in list order. |
| FlowLayout.PlacedAfter | main.py:103-118 | Item k is placed from the loop state the items before it left. |
| FlowLayout.FirstAtTopLeft | main.py:99-115 | The first item sits at `(rect.x, rect.y)`. |
| FlowLayout.Neighbours | main.py:107-117 | Consecutive items either share a row, the second exactly `spacing` right of the first (inside the right edge when items have height), or the second starts a lower row at the left edge. |
| FlowLayout.ItemsWithinHeight | main.py:101-120 | Every item lies between the top of the rectangle and the reported height. |
| FlowLayout.LineHeightIsRowMax | main.py:108-118 | Every item lies on or above the last row, and the final line height is the largest height on that row (0 when none is positive). |
| FlowLayout.DoLayout | main.py:98-120 | The placing pass and the `testOnly` pass return the same height. The placing pass gives each item the geometry of its computed position and size hint, and the test pass sets none. |
| FlowLayout.HeightForWidth | main.py:79-81 | The reported height is non-negative, at least each item's height, and 0 for no items. |
| FlowLayout.ItemAt | main.py:63-66 | An index inside the list gives that item. Any other index gives `None`. |
| FlowLayout.TakeAt | main.py:68-71 | Out of range, nothing is returned or removed. In range, exactly that item is removed and the others keep their order. |
| FlowLayout.TakeAtRestore | main.py:68-71 | Putting the taken item back at its index restores the list. |
| FlowLayout.ClearAll | main.py:52-55 | Taking index 0 until nothing is returned takes every item, in order, and leaves the list empty. |
| FlowLayout.LargestMinimum | main.py:90-93 | Each dimension is the largest item minimum in that dimension, or -1 for no items. |
| FlowLayout.MinimumSize | main.py:90-96 | Every item minimum plus the margins fits in the minimum size. |
| Merger.NewPage | main.py:128-147 | A page enters the grid ticked and not rotated. |
| Merger.Rotate | main.py:209-210 | A quarter turn keeps the rotation in {0, 90, 180, 270}, changes it, and changes nothing else. |
| Merger.RotateTimesAngle | main.py:209-210 | After k presses the rotation is the start plus 90·k, modulo 360. |
| Merger.FourRotationsRestore | main.py:209-210 | Four presses restore the page. |
| Merger.AddFile | main.py:389-410 | Loading a PDF of n pages appends pages 0 … n-1 of it, ticked and not rotated, after the existing grid. |
| Merger.DroppedPdfs | main.py:485-488 | Exactly the dropped paths ending in ".pdf" in any case are added. |
| Merger.DroppedPdfsAppend | main.py:485-488 | The PDFs of two stacked batches of paths are those of each batch, in order. |
| Merger.DroppedPdfsSingle | main.py:486-488 | A single path is kept exactly when it ends in ".pdf" in any case. |
| Merger.ToggleAll | main.py:431-433 | Every checkbox takes the given status, and nothing else changes. |
| Merger.Selected | main.py:445 | The selection holds only ticked pages of the grid, and every ticked page is in it. |
| Merger.SelectedAppend | main.py:445 | Selection distributes over concatenation, so grid order is kept. |
| Merger.SelectAll | main.py:431-445 | After ticking everything, the selection is the whole grid. |
| Merger.SelectNone | main.py:431-445 | After unticking everything, the selection is empty. |
| Merger.Steps | main.py:461-471 | One step per selected page, in order, from its file and index. `rotate` is called iff its rotation is nonzero, with that rotation. The page is written with the turn its shared page object has accumulated, including the rotations of earlier copies of the same page. |
| Merger.StepsIntended | main.py:461-471 | As intended, every page is written turned by its own rotation only, with the same file, index and `rotate` call. |
| Merger.TurnedSkip | main.py:459-469 | Pages other than the one in question add nothing to its shared page object's turn. |
| Merger.Turned | main.py:459-469 | The turn a page's shared object has built up is 0 when no copy of that page was selected, and never negative for non-negative rotations. |
| Merger.TurnedLast | main.py:461-469 | Each selected copy adds its own rotation to the turn of its page and nothing to the turn of other pages. |
| Merger.TurnAlone | main.py:459-471 | The first selected copy of a page is written turned by exactly its own rotation. |
| Merger.TurnAccumulates | main.py:459-471 | A later copy of a page is written with the previous copy's turn plus its own rotation. |
| Merger.StepsIntendedWhenDistinct | main.py:459-471 | When no page of any file is selected twice, the steps as written are the steps as intended. |
| Merger.RepeatedPageAccumulates | main.py:459-471 | A page selected twice: the second copy is written turned by both rotations as written, and by its own as intended. |
| Merger.PerformMerge | main.py:444-480 | An empty selection writes nothing. A cancelled dialog writes nothing. The file is written iff every selected page can be read and the output opens, and then the plan is the steps of the selection, which follow it page by page, and the grid is cleared. When no page is selected twice, every page is written turned by its own rotation. Otherwise the grid is kept. |
| Merger.ClearAllPages | main.py:435-442 | Taking index 0 while items remain empties the layout and takes every item in order. |
| Selection.Trunc | gui/ui_components.py:65-68 | Python's `int()`: truncation toward zero, within one of the real value. |
| Selection.ScaleMonotone | gui/ui_components.py:64-68 | Dividing by a positive zoom and truncating keeps non-negative coordinates non-negative and in order. |
| Selection.Clamp | gui/ui_components.py:54-58 | A clamped coordinate lies in `[0, limit]`, and one already inside is unchanged. |
| Selection.RegionFrom | gui/ui_components.py:47-70 | There is no region iff the clamped extent is zero along some axis. With a positive zoom, width and height are non-negative, and with a pixmap the position is too. |
| Selection.ScaledCornersOrdered | gui/ui_components.py:64-70 | The scaled corners stay ordered, and with a pixmap they are non-negative. |
| Selection.TruncMonotone | gui/ui_components.py:65-68 | Python's `int()` on reals never reverses their order. |
| Selection.DivideMonotone | gui/ui_components.py:64-68 | Dividing two ordered coordinates of any sign by a positive zoom and truncating keeps them ordered. |
| Selection.Span | gui/ui_components.py:48-58 | The clamped extent along one axis is non-negative, and without a pixmap it is the distance between the corners. |
| Selection.BoundMonotone | gui/ui_components.py:54-58 | Clamping keeps the normalised corners in order. |
| Selection.DirectionIndependent | gui/ui_components.py:48-51 | Swapping the drag corners, or dragging along the other diagonal, gives the same region. |
| Selection.SameCorners | gui/ui_components.py:48-51 | The region depends on the corners only through their minima and maxima. |
| Selection.RegionInsidePixmap | gui/ui_components.py:53-70 | Unscaled, a region lies inside the pixmap and has positive width and height. |
| Selection.SelectionRect | gui/ui_components.py:42-70 | Without both corners there is no region. With both, the region is the normalised, clamped and scaled rectangle they span. |
| Selection.SelectionRectAsWritten | gui/ui_components.py:44-45 | As written, a corner that is `None` or at `(0, 0)` gives no region. Otherwise it agrees with the intended version. |
| Selection.Truthy | gui/ui_components.py:44-45 | A PyQt5 point held in an attribute is false when unset or at the null point `(0, 0)`, and true otherwise. |
| Selection.OriginDragLost | gui/ui_components.py:44-45 | A drag from `(0, 0)` to `(100, 80)` on a 200×200 pixmap at zoom 1 gives no region as written, and `(0, 0, 100, 80)` as intended. |
| Selection.Clear | gui/ui_components.py:35-40 | Clearing forgets both corners, so there is no region, keeps the mode and emits `None`. |
| Selection.LargeEnough | gui/ui_components.py:89 | A region is emitted only when it exists and is at least 6 wide and 6 high, that is larger than 5 by 5. |
| Selection.SetMode | gui/ui_components.py:26-33 | Switching on changes only the mode. Switching off also clears the selection and emits `None`. |
| Selection.Press | gui/ui_components.py:72-77 | A left press in selection mode puts both corners at the mouse position, so there is no region yet. Any other press changes nothing. |
| Selection.Move | gui/ui_components.py:79-83 | As written: while a first corner other than `(0, 0)` is held, the second corner follows the mouse. Otherwise nothing changes. |
| Selection.Release | gui/ui_components.py:85-94 | As written: without a first corner other than `(0, 0)` nothing happens. Otherwise the region is emitted when the release point is not `(0, 0)` and the region is larger than 5 by 5; else the selection is cleared and `None` emitted. |
| Selection.MoveIntended | gui/ui_components.py:79-83 | As intended: while any first corner is held, the second corner follows the mouse. |
| Selection.ReleaseIntended | gui/ui_components.py:85-94 | As intended: any held first corner finishes a drag. The region is emitted when larger than 5 by 5; else the selection is cleared and `None` emitted. |
| Selection.MovesDoNotMatter | gui/ui_components.py:79-94 | Mouse moves between press and release do not change what the release does, as written and as intended. |
| Selection.DragEmits | gui/ui_components.py:72-94 | As written, a drag from a to c does nothing when a is `(0, 0)`. Otherwise it emits the region they span when c is not `(0, 0)` and the region is large enough, and `None` otherwise. |
| Selection.DragEmitsIntended | gui/ui_components.py:72-94 | As intended, a drag from a to c emits the region they span when it is large enough, and `None` otherwise. |
| Selection.OriginPressIgnored | gui/ui_components.py:79-94 | As written, after a press at `(0, 0)` moves and the release change nothing and emit nothing. |
| Selection.UnscaledRegion | gui/ui_components.py:47-70 | At zoom 1, a drag inside the pixmap with distinct coordinates gives exactly the rectangle it spans. |
| Selection.OriginDragIgnoredAsWritten | gui/ui_components.py:85-94 | A drag from `(0, 0)` to `(100, 80)` on a 200×200 pixmap emits nothing as written, and `(0, 0, 100, 80)` as intended. |
| Selection.OriginReleaseClears | gui/ui_components.py:85-94 | A drag from `(50, 50)` to `(0, 0)` on a 200×200 pixmap clears and emits `None` as written, and emits `(0, 0, 50, 50)` as intended. |
| Selection.OriginReleaseClearsAsWritten | gui/ui_components.py:85-94 | As written, a drag from `(50, 50)` released at `(0, 0)` clears the selection and emits `None`, whatever the page. |
| Selection.OriginReleaseEmitsIntended | gui/ui_components.py:85-94 | As intended, the drag from `(50, 50)` to `(0, 0)` on a 200×200 pixmap at zoom 1 emits `(0, 0, 50, 50)`. |
| Preview.Restore | gui/pdf_to_office_gui.py:262-267 | Each page gets its saved checkbox state, and a page with no saved state is ticked. |
| Preview.Columns | gui/pdf_to_office_gui.py:223 | There is at least one column. |
| Preview.ColumnsInZoomRange | gui/pdf_to_office_gui.py:223 | Over the zoom range the window allows, there are one to eight columns. |
| Preview.Cell | gui/pdf_to_office_gui.py:272-273 | The column lies in `[0, columns)`, and `row * columns + col` gives the page index back. |
| Preview.CellsDistinct | gui/pdf_to_office_gui.py:272-274 | No two pages share a grid cell. |
| Preview.OnNone | gui/pdf_to_office_gui.py:329-332 | A `None` from page p drops the held region only when p holds it, and nothing else changes. |
| Preview.ClearOthers | gui/pdf_to_office_gui.py:320-322 | Clearing the other labels removes every rectangle except page p's. A region held on another page is dropped by that label's `None`. Checkboxes are untouched. |
| Preview.OnSelectionChanged | gui/pdf_to_office_gui.py:317-333 | A region on page p becomes the only region held, with p as its page, and ticks p without touching other checkboxes. A `None` from page p means its label has already cleared itself, so p shows no rectangle, and the window acts as `OnNone`. Every event keeps "only the page holding the region shows a rectangle". |
| Preview.RegionThenNone | gui/pdf_to_office_gui.py:317-332 | A region followed by its own page's `None`, as a small drag there sends, leaves no region held and no rectangle shown on any page. |
| Preview.NoneFromOtherPageKeepsRegion | gui/pdf_to_office_gui.py:329-332 | A `None` from another page keeps the held region. |
| Preview.Render | gui/pdf_to_office_gui.py:213-276 | A re-render restores the checkboxes and draws no rectangles. It keeps the held region only while region mode is on, because a label switched off emits `None`. |
| Preview.ClampZoom | gui/pdf_to_office_gui.py:284 | The zoom lies in [0.5, 3.0], and a zoom already inside is unchanged. |
| Preview.AdjustZoom | gui/pdf_to_office_gui.py:278-286 | Zooming keeps every checkbox state, keeps the zoom in range with one to eight columns, and keeps the region only in region mode. |
| Preview.ToggleSelectionMode | gui/pdf_to_office_gui.py:303-306 | Switching on changes only the mode. Switching off removes all rectangles and the held region. Checkboxes are kept. |
| Preview.ClearSelection | gui/pdf_to_office_gui.py:308-315 | Clearing leaves no region and region mode off, and keeps the checkboxes and the zoom. |
| Preview.CheckedIndices | gui/pdf_to_office_gui.py:337 | Exactly the ticked page indices, strictly ascending. |
| Preview.CountMatchesIndices | gui/pdf_to_office_gui.py:296-297 | The count the label shows equals the number of pages a submit sends. |
| Preview.CheckedCount | gui/pdf_to_office_gui.py:296-297 | The count is 0 iff no page is ticked, and the page total iff every page is ticked. |
| Preview.Submit | gui/pdf_to_office_gui.py:335-348 | Nothing is emitted iff no page is ticked. Otherwise the emission is the ticked indices, ascending, with the held region and its page. |
| Preview.RegionPageIsSubmitted | gui/pdf_to_office_gui.py:317-337 | Drawing a region on any page makes that page part of the submission, together with the region. |
| Conversion.PageNumbers | gui/pdf_to_office_gui.py:852 | Each page number is its index plus one. |
| Conversion.OnPagesSelected | gui/pdf_to_office_gui.py:836-862 | Choosing every page is stored as `None` (all pages), and any other choice is kept as given. The region is kept. The label is the head followed by the crop note. |
| Conversion.DisplayNumbers | gui/pdf_to_office_gui.py:852-856 | The list part reads back as the first five page numbers and, past five, the count of the rest. |
| Conversion.CropNumbers | gui/pdf_to_office_gui.py:859-860 | The crop note reads back as the cropped page's 1-based number, or is empty. |
| Conversion.HeadNumbers | gui/pdf_to_office_gui.py:848-857 | The head reads back as the page count when every page is chosen, and as the shown page numbers otherwise. |
| Conversion.SummaryNumbers | gui/pdf_to_office_gui.py:847-862 | The whole label reads back as the head's numbers followed by the cropped page's number. |
| Conversion.BoxOf | gui/pdf_to_office_gui.py:392-394 | The crop box starts at the region's corner and has the region's width and height. |
| Conversion.PagesToProcess | gui/pdf_to_office_gui.py:386 | The chosen pages, or every page in order when the choice is `None` or empty. |
| Conversion.Tasks | gui/pdf_to_office_gui.py:386-399 | Only in-range chosen pages are read. A page is cropped iff it is the region's page, and then to the region's box. |
| Conversion.TasksKeepOrder | gui/pdf_to_office_gui.py:387-389 | When every index is in range, every page is read, in the given order. |
| Conversion.TasksCover | gui/pdf_to_office_gui.py:387-389 | Out-of-range indices are the only ones skipped. |
| Conversion.AllPagesWhenNoneChosen | gui/pdf_to_office_gui.py:386-389 | With no choice, every page of the document is read, in order. |
| Conversion.ExtractText | gui/pdf_to_office_gui.py:381-404 | The text is empty iff every page text is empty. |
| Conversion.ExtractTextAppend | gui/pdf_to_office_gui.py:401-403 | The text of consecutive runs of pages is the concatenation of their texts, so each non-empty page adds its text and a newline. |
| Conversion.Split | gui/pdf_to_office_gui.py:481 | `split('\n')` gives at least one piece, and no piece holds a newline. |
| Conversion.SplitJoin | gui/pdf_to_office_gui.py:481 | Joining the pieces with the separator gives the text back. |
| Conversion.PageCounts | gui/pdf_to_office_gui.py:464-487 | On each page, valid cells never outnumber counted cells. |
| Conversion.CountValidZero | gui/pdf_to_office_gui.py:469-475 | No cell counts as valid iff every cell is `None` or blank. |
| Conversion.CountValidFull | gui/pdf_to_office_gui.py:469-475 | Every cell counts as valid iff every cell has non-blank text. |
| Conversion.Counts | gui/pdf_to_office_gui.py:449-487 | Over the pages read, valid cells never outnumber counted cells. |
| Conversion.TextOnlyCountsAllValid | gui/pdf_to_office_gui.py:478-492 | Without tables every counted line is valid, so the accuracy is 100 once a line has text and 0 otherwise. |
| Conversion.Accuracy | gui/pdf_to_office_gui.py:490-492 | The accuracy lies in [0, 100], is 0 iff nothing was valid, is above 20 otherwise, and is 100 when everything counted was valid. |
| Conversion.ExcelAccuracyBounds | gui/pdf_to_office_gui.py:444-492 | The accuracy of a whole export lies in [0, 100] and is 0 exactly when no valid cell or line was found. |
| Conversion.CollapseSpaces | gui/pdf_to_office_gui.py:514-515 | Collapsing whitespace runs never lengthens the text, and empties it only when it was empty. The non-whitespace characters stay the same and in order. The only whitespace left is the plain space, and no two whitespace characters are adjacent. The result starts with a space iff the text starts with whitespace. |
| Conversion.NonSpaceSkip | gui/pdf_to_office_gui.py:514-515 | Skipping a run of leading whitespace keeps the non-whitespace characters. |
| Conversion.LeadingSpacesExact | gui/pdf_to_office_gui.py:514-515 | The leading whitespace run ends exactly where the first character that is not whitespace is. |
| Conversion.CollapseRun | gui/pdf_to_office_gui.py:514-515 | A whitespace run before text that does not start with whitespace becomes exactly one space. |
| Conversion.CollapseSplit | gui/pdf_to_office_gui.py:514-515 | Collapsing works piece by piece across a joint just after a character that is not whitespace. |
| Conversion.InteriorRunOneSpace | gui/pdf_to_office_gui.py:514-515 | A whitespace run between two words becomes exactly one space, and the words are collapsed on their own. |
| Conversion.BlankIffNormalizedEmpty | gui/pdf_to_office_gui.py:512-517 | A text normalises to nothing exactly when it is blank. |
| Conversion.Similarity | gui/pdf_to_office_gui.py:511-519 | The score lies in [0, 100] and is 0 when either text is blank. Otherwise it is the matcher's ratio of the normalised texts, in percent. |
| ImageMerger.DroppedImages | gui/image_merger_gui.py:218-222 | Exactly the dropped paths whose lower-cased form ends in a supported extension are added, in their original spelling. |
| ImageMerger.DroppedAppend | gui/image_merger_gui.py:219-222 | Paths are added in drop order: two drops add what each adds, in sequence. |
| ImageMerger.UpperCaseExtensionKept | gui/image_merger_gui.py:220-222 | "SCAN.PNG" is accepted and kept as dropped, and "notes.txt" is rejected. |
| ImageMerger.TempPath | gui/image_merger_gui.py:189 | The copy's path is the image path followed by a nine-character suffix. |
| ImageMerger.Temps | gui/image_merger_gui.py:183-194 | Every image that needs converting has its copy in the list of temporary files. |
| ImageMerger.TempsFromListed | gui/image_merger_gui.py:187-192 | Every temporary file is the copy of a listed image that needs converting. |
| ImageMerger.OneCopyPerConversion | gui/image_merger_gui.py:187-192 | There is exactly one temporary file per image that needs converting. |
| ImageMerger.NoCopiesWithoutConversion | gui/image_merger_gui.py:187-194 | Without RGBA, P or LA images, no copy is made and every path is written as listed. |
| ImageMerger.ConvertImages | gui/image_merger_gui.py:182-194 | The loop finishes iff every image opens and every JPEG copy is saved. Then the written paths follow list order, one per image, each replaced by its copy exactly when its mode is RGBA, P or LA. When an image fails to open or its copy fails to save, the copies saved for the images before it are recorded. |
| ImageMerger.AllConvertWhenSavesSucceed | gui/image_merger_gui.py:185-194 | When every copy can be saved, the loop gets through the list exactly when every image opens. |
| ImageMerger.PerformMerge | gui/image_merger_gui.py:162-211 | Fewer than two images, or a cancelled dialog, writes nothing. The PDF is written iff every image opens, every copy is saved and the file can be written. Then its sources are the substituted paths, every copy is removed, and the list is cleared. Otherwise the copies saved so far stay on disk and the list is kept. |
| PyText.LeadingSpaces | gui/splitter_gui.py:148 | The counted prefix is all whitespace, and the next character is not. |
| PyText.TrailingSpaces | gui/splitter_gui.py:148 | The counted suffix is all whitespace, and the character before it is not. |
| PyText.Strip | gui/splitter_gui.py:148 | A stripped string is no longer than the original and neither starts nor ends with whitespace. |
| PyText.StripEmptyIff | gui/splitter_gui.py:149 | A trimmed name is empty exactly when the text holds only whitespace. |
| PyText.StripIdempotent | gui/image_splitter_gui.py:349 | Stripping twice is stripping once. |
| PyText.Lower | gui/splitter_gui.py:150 | Lower-casing keeps the length and maps every character on its own. |
| PyText.LastIndexOf | gui/splitter_gui.py:151 | The last occurrence of a character: none exactly when it is absent, and no later occurrence. |
| PyText.DropExtension | gui/splitter_gui.py:151 | Without a dot the name is unchanged. Otherwise the result is the part before the last dot. |
| PyText.DropExtensionOfJoin | gui/image_splitter_gui.py:353-355 | Cutting `base.ext` at its last dot gives `base` back when `ext` has no dot. |
| PyText.Decimal | gui/pdf_to_office_gui.py:852 | `str(n)` is a non-empty string of digits. |
| PyText.DecimalRoundTrip | gui/pdf_to_office_gui.py:852 | `int(str(n)) == n`. |
| PyText.DecimalLength | gui/splitter_gui.py:138 | A number below `10^k` has at most k digits. |
| PyText.ZeroPadRoundTrip | gui/image_splitter_gui.py:409 | A zero-padded number reads back as the number and is `max(width, len(str(n)))` long. |
| PyText.LeadingZeros | gui/image_splitter_gui.py:409 | Leading zeros do not change the value of a digit string. |
| PyText.ZeroPadInjective | gui/image_splitter_gui.py:409 | Two different numbers never pad to the same text. |
| PyText.Decimals | gui/pdf_to_office_gui.py:852 | One decimal string per number, in order. |
| PyText.NumbersAppend | gui/pdf_to_office_gui.py:857-860 | The numbers read from a concatenation are those of each part, when the joint does not split a digit run. |
| PyText.NumbersOfDecimal | gui/pdf_to_office_gui.py:852 | The text of a number reads back as that one number. |
| PyText.NumbersOfJoin | gui/pdf_to_office_gui.py:854-856 | `", ".join(str(n) for n in ns)` reads back as `ns`. |
| DateFormat.DdMMyyyy | gui/splitter_gui.py:138 | The date stamp is all digits and has no dot, so it never adds an extension. |
| DateFormat.DdMMyyyyRoundTrip | gui/splitter_gui.py:138 | The stamp of a valid date is eight digits long and reads back as its day, month and year. |

## Left out

- Widget construction, stylesheets, dialogs and message boxes are not modelled. A dialog's answer is a parameter: a save path that is empty when cancelled, a folder that is `None` when cancelled.
- The document libraries are not modelled: pypdf, pdf2image, pdfplumber (`extract_text`, `extract_tables`), Pillow, img2pdf, openpyxl, pdf2docx and python-docx.
  - A document is an abstract sequence of pages or frames.
  - Whether a file can be read or written is a function parameter.
  - The cell values written to the workbook are not modelled, only the counts.
- pdfplumber's `within_bbox` raising is not modelled. Its exception is swallowed, so the crop box is recorded as requested.
- File-system effects are left out because they are I/O:
  - `os.makedirs`, the output folder join and its permission error;
  - the split log;
  - the `ImportError` branches;
  - the existence check before a temporary copy is removed.
- ImageMerger.ConvertImages: a copy whose `save` raises is taken to leave no file behind, because Pillow deletes a file it created when saving fails. A partial file left by a failure while the file is being closed is not modelled.
- The `QThread` workers run the same steps off the UI thread. That is concurrency and is not modelled. `convert_to_word` and `convert_to_text` are library round trips around `extract_pdf_text` and the similarity score, which are modelled.
- The OCR panel, the help window and the welcome screen are not modelled: a wrapper over an external binary, static content, and navigation.
- Merger.PerformMerge: treats every read of a file as one answer of `pageCount`. The reader cache is modelled only through the page objects it shares, as the `turn` of each step. A step's `turn` is the rotation its page object carries when it is added. Whether pypdf's `add_page` copies the object at that moment, or lets a page added twice share one copy, is library behaviour and is not modelled.
- ImageSplitter.RemoveRow: takes the row index as given. Both delete buttons capture their row index when the row is created (gui/image_splitter_gui.py:285, gui/splitter_gui.py:82), and `remove_row` (gui/image_splitter_gui.py:300-302) checks only that more than one row remains. After an earlier deletion a button can therefore name the wrong row, or an index past the end (which Qt ignores, as the model does). That staleness of the captured index is not modelled.
- Conversion.Similarity: `difflib.SequenceMatcher` is a parameter `ratio` assumed to lie in [0, 1]. Only the blank-text guard and the normalisation are modelled. `Normalize` lower-cases through `PyText.Lower`, which maps ASCII letters only, while Python's `str.lower` also folds non-ASCII capitals. For texts such as "École" against "école", the strings passed to `ratio` therefore differ from Python's, and so can the score.
- PyText.Lower: maps only ASCII letters. The suffixes it is compared with are ASCII, and no non-ASCII character lower-cases to an ASCII one that could complete them.
- Conversion.Accuracy: uses exact `real` arithmetic. Python float rounding in the percentage is ignored.
- Selection.RegionFrom: the zoom factor is an exact `real`. The float division before `int()` is not rounded.
- Preview.AdjustZoom: the zoom is an exact `real`. The zoom label's text and the thumbnail sizes are not modelled.
- FlowLayout.DoLayout: the spacing is a parameter, where Qt derives it from the style when it is -1. An item is its size hint.
- ImageSplitter.CountFrames: takes the number of frames Pillow can seek as its input, instead of seeking.
- ImageSplitter.SplitTiff: an unreadable TIFF (`frameCount` is `None`) and a failing seek end the run. Save failures are not modelled separately.
- PdfSplitter.RangePages: requires start ≥ 1. Both callers guarantee this with a spin-box minimum of 1, and start 0 would make Python read index -1.

## Findings

| source | as written | input that shows it | evidently intended | confidence | as-written member | corrected member |
|---|---|---|---|---|---|---|
| gui/ui_components.py:44-45 | `if not self.selection_start or not self.selection_end` also treats a corner at `QPoint(0, 0)` as missing, because a PyQt5 `QPoint` is false when it is null | press at (0, 0), release at (100, 80), pixmap 200×200, zoom 1.0: `get_selection_rect` returns no region, and the release handler (line 86) ignores the release, so nothing is emitted and any region held before stays. Press at (50, 50), release at (0, 0): the selection is cleared and `None` is emitted | the region (0, 0, 100, 80): only an unset corner (`None`) means no selection | medium, not executed | Selection.SelectionRectAsWritten, Selection.Move, Selection.Release, Selection.OriginDragLost, Selection.OriginDragIgnoredAsWritten, Selection.OriginReleaseClears | Selection.SelectionRect, Selection.MoveIntended, Selection.ReleaseIntended, Selection.DragEmitsIntended |
| main.py:459-471 | one `PdfReader` is kept per file and `reader.pages[i]` returns the same page object each time, so `page_obj.rotate(p.rotation)` adds to the rotation that earlier copies of the same page already put on it | a.pdf dropped twice, both copies of page 0 ticked, the first rotated to 90 and the second left at 0: the second copy is written turned by 90. With both at 90, the second is written turned by 180 | each copy is written turned by its own rotation | medium, not executed | Merger.Steps, Merger.TurnAccumulates, Merger.RepeatedPageAccumulates | Merger.StepsIntended, Merger.StepsIntendedWhenDistinct |

=== FILE: conversion.dfy ===
/**
 * The PDF-to-Office panel after the preview closes (gui/pdf_to_office_gui.py
 * `PDFToOfficeGUI.on_pages_selected`) and the bookkeeping of its worker
 * (`ConversionWorker`): which pages are read, where the crop box goes, how
 * page texts are joined, and the "accuracy" figure of the Excel export.
 * Page contents are abstract; the libraries that read them are not modelled.
 */
module Conversion {
  import opened Optional
  import opened PyText
  import Selection
  import Preview

  // ---------------------------------------------------------------------------
  // The summary label
  // ---------------------------------------------------------------------------

  /** `[p + 1 for p in pages]`: page numbers as the user reads them. */
  function PageNumbers(pages: seq<nat>): (r: seq<nat>)
    ensures |r| == |pages|
    ensures forall i :: 0 <= i < |pages| ==> r[i] == pages[i] + 1
  {
    seq(|pages|, i requires 0 <= i < |pages| => pages[i] + 1)
  }

  /** The list part: up to five page numbers, then `... (+k more)`. */
  function Display(nums: seq<nat>): string {
    if |nums| > 5 then Join(Decimals(nums[..5]), ", ") + "... (+" + Decimal(|nums| - 5) + " more)"
    else Join(Decimals(nums), ", ")
  }

  /** What the panel keeps after the preview: the pages to convert (`None` for all), the region, and the label text. */
  datatype Choice = Choice(selected: Option<seq<nat>>, held: Option<Preview.Held>, summary: string)

  /** The first part of the label: the page count when every page is chosen, otherwise the page list. */
  function Head(pages: seq<nat>, total: nat): string {
    if |pages| == total then "Selected: All " + Decimal(|pages|) + " pages"
    else "Selected: Pages " + Display(PageNumbers(pages))
  }

  /** The crop note, when a region is held. */
  function CropNote(held: Option<Preview.Held>): string {
    if held.Some? then " | Crop applied to Page " + Decimal(held.value.page + 1) else ""
  }

  /** `on_pages_selected(selection_data)` for a document of `total` pages. */
  function OnPagesSelected(sub: Preview.Submission, total: nat): (c: Choice)
    ensures c.held == sub.held
    ensures c.selected.None? <==> |sub.pages| == total
    ensures c.selected.Some? ==> c.selected.value == sub.pages
    ensures c.summary == Head(sub.pages, total) + CropNote(sub.held)
  {
    Choice(if |sub.pages| == total then None else Some(sub.pages), sub.held, Head(sub.pages, total) + CropNote(sub.held))
  }

  /** The numbers the list part shows: the first five page numbers and, past five, how many more. */
  function ShownNumbers(nums: seq<nat>): seq<nat> {
    if |nums| > 5 then nums[..5] + [|nums| - 5] else nums
  }

  /** The list part reads back as the numbers it is meant to show. */
  lemma DisplayNumbers(nums: seq<nat>)
    ensures Numbers(Display(nums)) == ShownNumbers(nums)
  {
    if |nums| > 5 {
      NumbersOfJoin(nums[..5]);
      WithTrailer(Join(Decimals(nums[..5]), ", "), "... (+", |nums| - 5, " more)");
    } else {
      NumbersOfJoin(nums);
    }
  }

  /** The crop note reads back as the cropped page's number, or nothing. */
  lemma CropNumbers(held: Option<Preview.Held>)
    ensures Numbers(CropNote(held)) == (if held.Some? then [held.value.page + 1] else [])
    ensures CropNote(held) == [] || !IsDigit(CropNote(held)[0])
  {
    if held.Some? {
      NumberBetween(" | Crop applied to Page ", held.value.page + 1, "");
      assert CropNote(held) == " | Crop applied to Page " + Decimal(held.value.page + 1) + "";
    }
  }

  /** The first part reads back as the page count, or as the shown page numbers. */
  lemma HeadNumbers(pages: seq<nat>, total: nat)
    ensures Numbers(Head(pages, total)) == if |pages| == total then [|pages|] else ShownNumbers(PageNumbers(pages))
  {
    if |pages| == total {
      NumberBetween("Selected: All ", |pages|, " pages");
    } else {
      DisplayNumbers(PageNumbers(pages));
      AfterWords("Selected: Pages ", Display(PageNumbers(pages)));
    }
  }

  /**
   * The label reads back as: the page count when every page is chosen,
   * otherwise the shown page numbers; then the cropped page's number.
   */
  lemma SummaryNumbers(sub: Preview.Submission, total: nat)
    ensures Numbers(OnPagesSelected(sub, total).summary) ==
      (if |sub.pages| == total then [|sub.pages|] else ShownNumbers(PageNumbers(sub.pages)))
      + (if sub.held.Some? then [sub.held.value.page + 1] else [])
  {
    HeadNumbers(sub.pages, total);
    CropNumbers(sub.held);
    NumbersAppend(Head(sub.pages, total), CropNote(sub.held));
  }

  // ---------------------------------------------------------------------------
  // Which pages the worker reads
  // ---------------------------------------------------------------------------

  /** pdfplumber's `(x0, top, x1, bottom)`. */
  datatype BBox = BBox(x0: int, y0: int, x1: int, y1: int)

  /** One page the worker reads, with the box it is cut to, if any. */
  datatype PageTask = PageTask(index: nat, crop: Option<BBox>)

  /** `(x, y, x + w, y + h)`. */
  function BoxOf(r: Selection.Region): (b: BBox)
    ensures b.x1 - b.x0 == r.w && b.y1 - b.y0 == r.h && b.x0 == r.x && b.y0 == r.y
  {
    BBox(r.x, r.y, r.x + r.w, r.y + r.h)
  }

  /** `pages_to_process`: the chosen pages, or every page when there is no (or an empty) choice. */
  function PagesToProcess(selected: Option<seq<nat>>, n: nat): (r: seq<nat>)
    ensures selected.Some? && selected.value != [] ==> r == selected.value
    ensures selected.None? || selected.value == [] ==> |r| == n && forall i :: 0 <= i < n ==> r[i] == i
  {
    if selected.Some? && selected.value != [] then selected.value else seq(n, i requires 0 <= i < n => i)
  }

  /** The read loop of `extract_pdf_text` and `convert_to_excel`: indices past the end are skipped. */
  function Tasks(order: seq<nat>, n: nat, held: Option<Preview.Held>): (r: seq<PageTask>)
    ensures |r| <= |order|
    ensures forall k :: 0 <= k < |r| ==> r[k].index < n && r[k].index in order
    ensures forall k :: 0 <= k < |r| ==>
      (r[k].crop.Some? <==> held.Some? && r[k].index == held.value.page)
      && (r[k].crop.Some? ==> r[k].crop.value == BoxOf(held.value.region))
  {
    if |order| == 0 then []
    else
      var i := order[0];
      var rest := Tasks(order[1..], n, held);
      if i < n then
        var crop := if held.Some? && i == held.value.page then Some(BoxOf(held.value.region)) else None;
        [PageTask(i, crop)] + rest
      else rest
  }

  /** When every index is in range, every one is read, in the given order. */
  lemma {:induction false} TasksKeepOrder(order: seq<nat>, n: nat, held: Option<Preview.Held>)
    requires forall i :: 0 <= i < |order| ==> order[i] < n
    ensures |Tasks(order, n, held)| == |order|
    ensures forall k :: 0 <= k < |order| ==> Tasks(order, n, held)[k].index == order[k]
  {
    if |order| > 0 {
      TasksKeepOrder(order[1..], n, held);
    }
  }

  /** Some task reads page `i`. */
  predicate Reads(r: seq<PageTask>, i: nat) {
    exists k :: 0 <= k < |r| && r[k].index == i
  }

  /** Out-of-range indices are the only ones dropped. */
  lemma {:induction false} TasksCover(order: seq<nat>, n: nat, held: Option<Preview.Held>)
    ensures forall i :: 0 <= i < |order| && order[i] < n ==> Reads(Tasks(order, n, held), order[i])
  {
    if |order| > 0 {
      TasksCover(order[1..], n, held);
      var r := Tasks(order, n, held);
      var rest := Tasks(order[1..], n, held);
      forall i | 0 <= i < |order| && order[i] < n
        ensures Reads(r, order[i])
      {
        if i == 0 {
          assert r[0].index == order[0];
        } else {
          assert order[1..][i - 1] == order[i];
          assert Reads(rest, order[i]);
          var k :| 0 <= k < |rest| && rest[k].index == order[i];
          if order[0] < n {
            assert r[k + 1] == rest[k];
          } else {
            assert r[k] == rest[k];
          }
        }
      }
    }
  }

  /** With no choice, the worker reads every page of the document in order. */
  lemma AllPagesWhenNoneChosen(selected: Option<seq<nat>>, n: nat, held: Option<Preview.Held>)
    requires selected.None? || selected.value == []
    ensures var r := Tasks(PagesToProcess(selected, n), n, held);
      |r| == n && forall k :: 0 <= k < n ==> r[k].index == k
  {
    TasksKeepOrder(PagesToProcess(selected, n), n, held);
  }

  /** `extract_pdf_text`: each non-empty page text followed by a newline; empty pages add nothing. */
  function ExtractText(tasks: seq<PageTask>, textOf: PageTask -> string): (text: string)
    ensures text == [] <==> forall k :: 0 <= k < |tasks| ==> textOf(tasks[k]) == []
  {
    if |tasks| == 0 then ""
    else
      var t := textOf(tasks[0]);
      (if t != [] then t + "\n" else "") + ExtractText(tasks[1..], textOf)
  }

  /** The text of consecutive runs of pages is the concatenation of their texts. */
  lemma {:induction false} ExtractTextAppend(a: seq<PageTask>, b: seq<PageTask>, textOf: PageTask -> string)
    ensures ExtractText(a + b, textOf) == ExtractText(a, textOf) + ExtractText(b, textOf)
  {
    if |a| > 0 {
      assert (a + b)[1..] == a[1..] + b;
      ExtractTextAppend(a[1..], b, textOf);
    } else {
      assert a + b == b;
    }
  }

  // ---------------------------------------------------------------------------
  // Lines and the Excel accuracy
  // ---------------------------------------------------------------------------

  /** Python's `s.split(sep)` for a one-character separator. */
  function Split(s: string, sep: char): (parts: seq<string>)
    ensures |parts| >= 1
    ensures forall k :: 0 <= k < |parts| ==> sep !in parts[k]
  {
    if |s| == 0 then [""]
    else
      var rest := Split(s[1..], sep);
      if s[0] == sep then [""] + rest else [[s[0]] + rest[0]] + rest[1..]
  }

  /** Joining the pieces with the separator gives the text back. */
  lemma {:induction false} SplitJoin(s: string, sep: char)
    ensures Join(Split(s, sep), [sep]) == s
  {
    if |s| > 0 {
      var rest := Split(s[1..], sep);
      SplitJoin(s[1..], sep);
      if s[0] == sep {
        assert ([""] + rest)[1..] == rest;
      } else {
        var parts := [[s[0]] + rest[0]] + rest[1..];
        if |rest| > 1 {
          assert parts[1..] == rest[1..];
        }
        assert s == [s[0]] + s[1..];
      }
    }
  }

  /** A table cell: `None` or the text pdfplumber found. */
  type Cell = Option<string>

  /** A cell that counts as valid: present and not blank once stripped. */
  predicate ValidCell(c: Cell) {
    c.Some? && Strip(c.value) != []
  }

  function CountValid(cells: seq<Cell>): (k: nat)
    ensures k <= |cells|
  {
    if |cells| == 0 then 0 else (if ValidCell(cells[0]) then 1 else 0) + CountValid(cells[1..])
  }

  function CountNonBlank(lines: seq<string>): (k: nat)
    ensures k <= |lines|
  {
    if |lines| == 0 then 0 else (if Strip(lines[0]) != [] then 1 else 0) + CountNonBlank(lines[1..])
  }

  /** What `convert_to_excel` finds on one page: its tables, flattened to their cells in order, or its text. */
  datatype PageContent = Tables(cells: seq<Cell>) | TextOnly(text: string)

  /** Cells counted on one page and how many are valid. Lines of text count only when not blank. */
  function PageCounts(p: PageContent): (vt: (nat, nat))
    ensures vt.0 <= vt.1
  {
    match p
    case Tables(cells) => (CountValid(cells), |cells|)
    case TextOnly(text) =>
      if text == [] then (0, 0)
      else
        var k := CountNonBlank(Split(text, '\n'));
        (k, k)
  }

  /** No cell is counted valid exactly when none is. */
  lemma {:induction false} CountValidZero(cells: seq<Cell>)
    ensures CountValid(cells) == 0 <==> forall k :: 0 <= k < |cells| ==> !ValidCell(cells[k])
  {
    if |cells| > 0 {
      CountValidZero(cells[1..]);
      if CountValid(cells) == 0 {
        forall k | 0 <= k < |cells|
          ensures !ValidCell(cells[k])
        {
          if k > 0 {
            assert cells[k] == cells[1..][k - 1];
          }
        }
      }
    }
  }

  /** Every cell is counted valid exactly when every cell is. */
  lemma {:induction false} CountValidFull(cells: seq<Cell>)
    ensures CountValid(cells) == |cells| <==> forall k :: 0 <= k < |cells| ==> ValidCell(cells[k])
  {
    if |cells| > 0 {
      CountValidFull(cells[1..]);
      if CountValid(cells) == |cells| {
        forall k | 0 <= k < |cells|
          ensures ValidCell(cells[k])
        {
          if k > 0 {
            assert cells[k] == cells[1..][k - 1];
          }
        }
      }
    }
  }

  /** Summed over the pages read. */
  function Counts(pages: seq<PageContent>): (vt: (nat, nat))
    ensures vt.0 <= vt.1
  {
    if |pages| == 0 then (0, 0)
    else
      var (v, t) := PageCounts(pages[0]);
      var (v', t') := Counts(pages[1..]);
      (v + v', t + t')
  }

  /** On pages without tables every counted line is valid. */
  predicate NoTables(pages: seq<PageContent>) {
    forall k :: 0 <= k < |pages| ==> pages[k].TextOnly?
  }

  /** Without tables, the valid count is the total: the accuracy is 100 once one line has text, 0 otherwise. */
  lemma {:induction false} TextOnlyCountsAllValid(pages: seq<PageContent>)
    requires NoTables(pages)
    ensures Counts(pages).0 == Counts(pages).1
    ensures Accuracy(Counts(pages).0, Counts(pages).1) == if Counts(pages).0 > 0 then 100.0 else 0.0
  {
    if |pages| > 0 {
      assert NoTables(pages[1..]) by {
        forall k | 0 <= k < |pages| - 1
          ensures pages[1..][k].TextOnly?
        {
          assert pages[1..][k] == pages[k + 1];
        }
      }
      TextOnlyCountsAllValid(pages[1..]);
    }
  }

  /** The accuracy: the valid share in percent, raised by 20 and capped at 100 when anything was valid. */
  function Accuracy(valid: nat, total: nat): (a: real)
    requires valid <= total
    ensures 0.0 <= a <= 100.0
    ensures a == 0.0 <==> valid == 0
    ensures valid > 0 ==> a > 20.0
    ensures valid > 0 && valid == total ==> a == 100.0
  {
    var base := if total > 0 then valid as real / total as real * 100.0 else 0.0;
    assert base <= 100.0 by {
      if total > 0 {
        assert valid as real / total as real <= 1.0;
      }
    }
    if valid > 0 then Min'(base + 20.0, 100.0) else base
  }

  function Min'(a: real, b: real): real {
    if a <= b then a else b
  }

  /** The accuracy of a whole export lies in [0, 100], and is 0 exactly when no valid cell or line was found. */
  lemma ExcelAccuracyBounds(pages: seq<PageContent>)
    ensures var (v, t) := Counts(pages);
      0.0 <= Accuracy(v, t) <= 100.0 && (Accuracy(v, t) == 0.0 <==> v == 0)
  {
  }

  // ---------------------------------------------------------------------------
  // The similarity guard
  // ---------------------------------------------------------------------------

  /** The non-whitespace characters of `s`, in order. */
  function NonSpace(s: string): string {
    if |s| == 0 then "" else (if IsSpace(s[0]) then "" else [s[0]]) + NonSpace(s[1..])
  }

  /** One unfolding of `NonSpace` at a first character `c`. */
  lemma NonSpaceCons(c: char, t: string)
    ensures NonSpace([c] + t) == (if IsSpace(c) then "" else [c]) + NonSpace(t)
  {
    assert ([c] + t)[1..] == t;
  }

  /** Skipping leading whitespace keeps the non-whitespace characters. */
  lemma {:induction false} NonSpaceSkip(s: string, k: nat)
    requires k <= |s|
    requires forall i :: 0 <= i < k ==> IsSpace(s[i])
    ensures NonSpace(s[k..]) == NonSpace(s)
  {
    if k == 0 {
      assert s[k..] == s;
    } else {
      NonSpaceSkip(s[1..], k - 1);
      assert s[1..][k - 1..] == s[k..];
    }
  }

  /**
   * `re.sub(r'\s+', ' ', s)`: every run of whitespace becomes one space.
   * The result keeps the non-whitespace characters of `s` in order, its only
   * whitespace is the plain space, no two whitespace characters are
   * adjacent, and it starts with a space exactly when `s` starts with
   * whitespace.
   */
  function CollapseSpaces(s: string): (r: string)
    ensures |r| <= |s|
    ensures r == [] <==> s == []
    ensures r != [] ==> (IsSpace(r[0]) <==> IsSpace(s[0]))
    ensures forall i :: 0 <= i < |r| && IsSpace(r[i]) ==> r[i] == ' '
    ensures forall i :: 0 <= i < |r| - 1 ==> !(IsSpace(r[i]) && IsSpace(r[i + 1]))
    ensures NonSpace(r) == NonSpace(s)
  {
    if |s| == 0 then ""
    else if IsSpace(s[0]) then
      var rest := CollapseSpaces(s[LeadingSpaces(s)..]);
      NonSpaceSkip(s, LeadingSpaces(s));
      NonSpaceCons(' ', rest);
      " " + rest
    else
      var rest := CollapseSpaces(s[1..]);
      NonSpaceCons(s[0], rest);
      NonSpaceCons(s[0], s[1..]);
      assert s == [s[0]] + s[1..];
      [s[0]] + rest
  }

  /** `LeadingSpaces` is the only split into an all-whitespace prefix and a rest that does not start with whitespace. */
  lemma LeadingSpacesExact(s: string, k: nat)
    requires k <= |s|
    requires forall i :: 0 <= i < k ==> IsSpace(s[i])
    requires k == |s| || !IsSpace(s[k])
    ensures LeadingSpaces(s) == k
  {
  }

  /** A non-empty whitespace run in front of text that does not start with whitespace becomes exactly one space. */
  lemma CollapseRun(w: string, t: string)
    requires |w| > 0 && forall i :: 0 <= i < |w| ==> IsSpace(w[i])
    requires t == [] || !IsSpace(t[0])
    ensures CollapseSpaces(w + t) == " " + CollapseSpaces(t)
  {
    var s := w + t;
    LeadingSpacesExact(s, |w|);
    assert s[|w|..] == t;
  }

  /** Collapsing works piece by piece when the first piece ends in a character that is not whitespace. */
  lemma {:induction false} CollapseSplit(a: string, b: string)
    requires |a| > 0 && !IsSpace(a[|a| - 1])
    ensures CollapseSpaces(a + b) == CollapseSpaces(a) + CollapseSpaces(b)
    decreases |a|
  {
    var s := a + b;
    assert s[0] == a[0];
    if !IsSpace(a[0]) {
      assert s[1..] == a[1..] + b;
      if |a| == 1 {
        assert a[1..] == [];
        assert s[1..] == b;
      } else {
        CollapseSplit(a[1..], b);
      }
    } else {
      var k := LeadingSpaces(a);
      assert k < |a|;
      LeadingSpacesExact(s, k);
      assert s[k..] == a[k..] + b;
      CollapseSplit(a[k..], b);
    }
  }

  /** A whitespace run between two words becomes exactly one space. */
  lemma InteriorRunOneSpace(a: string, w: string, t: string)
    requires |a| > 0 && !IsSpace(a[|a| - 1])
    requires |w| > 0 && forall i :: 0 <= i < |w| ==> IsSpace(w[i])
    requires t == [] || !IsSpace(t[0])
    ensures CollapseSpaces(a + w + t) == CollapseSpaces(a) + " " + CollapseSpaces(t)
  {
    assert a + w + t == a + (w + t);
    CollapseSplit(a, w + t);
    CollapseRun(w, t);
  }

  /** The normalised text compared by `calculate_text_similarity`. */
  function Normalize(s: string): string {
    CollapseSpaces(Lower(Strip(s)))
  }

  /**
   * `calculate_text_similarity`: 0 when either text is blank; otherwise
   * the matcher's ratio (`ratio`, in [0, 1], not modelled) in percent.
   */
  function Similarity(t1: string, t2: string, ratio: (string, string) -> real): (s: real)
    requires forall a, b :: 0.0 <= ratio(a, b) <= 1.0
    ensures 0.0 <= s <= 100.0
    ensures Strip(t1) == [] || Strip(t2) == [] ==> s == 0.0
    ensures Strip(t1) != [] && Strip(t2) != [] ==> s == ratio(Normalize(t1), Normalize(t2)) * 100.0
  {
    BlankIffNormalizedEmpty(t1);
    BlankIffNormalizedEmpty(t2);
    if t1 == [] || t2 == [] then 0.0
    else
      var n1 := Normalize(t1);
      var n2 := Normalize(t2);
      if n1 == [] || n2 == [] then 0.0 else ratio(n1, n2) * 100.0
  }

  /** A text normalises to nothing exactly when it is blank. */
  lemma BlankIffNormalizedEmpty(s: string)
    ensures Normalize(s) == [] <==> Strip(s) == []
  {
  }
}

=== FILE: flow_layout.dfy ===
/**
 * `FlowLayout` (main.py): items are placed left to right and wrap to a new
 * row when the next one would cross the right edge of the layout rectangle.
 * An item is represented by its size hint; integer geometry follows Qt
 * (`QRect.right()` is `x + width - 1`).
 */
module FlowLayout {
  import opened Optional

  datatype Size = Size(width: int, height: int)

  datatype Point = Point(x: int, y: int)

  datatype Rect = Rect(x: int, y: int, width: int, height: int)

  /** `QRect.right()`: the last column inside the rectangle. */
  function Right(r: Rect): int {
    r.x + r.width - 1
  }

  /** The loop variables of `doLayout` between items: `x`, `y` and `lineHeight`. */
  datatype Cursor = Cursor(x: int, y: int, lineHeight: int)

  /** Where each item went, and the loop variables after the last one. */
  datatype Layout = Layout(at: seq<Point>, cursor: Cursor)

  /** The next item starts a new row: it would end past the right edge and the current row has height. */
  predicate Wraps(c: Cursor, s: Size, r: Rect) {
    c.x + s.width > Right(r) && c.lineHeight > 0
  }

  /** The top-left corner given to the next item. */
  function Origin(c: Cursor, s: Size, r: Rect, spacing: int): Point {
    if Wraps(c, s, r) then Point(r.x, c.y + c.lineHeight + spacing) else Point(c.x, c.y)
  }

  /** The loop variables after placing the next item. */
  function Advance(c: Cursor, s: Size, r: Rect, spacing: int): (c': Cursor)
    ensures c'.x == Origin(c, s, r, spacing).x + s.width + spacing
    ensures c'.y == Origin(c, s, r, spacing).y
    ensures c.lineHeight >= 0 ==> c'.lineHeight >= 0 && c'.lineHeight >= s.height
  {
    if Wraps(c, s, r) then Cursor(r.x + s.width + spacing, c.y + c.lineHeight + spacing, Max(0, s.height))
    else Cursor(c.x + s.width + spacing, c.y, Max(c.lineHeight, s.height))
  }

  /** The placement of `items` in `r`, as `doLayout` computes it item by item. */
  function Run(items: seq<Size>, r: Rect, spacing: int): (l: Layout)
    ensures |l.at| == |items|
    ensures l.cursor.lineHeight >= 0
    ensures |items| == 0 ==> l.cursor == Cursor(r.x, r.y, 0)
  {
    if |items| == 0 then Layout([], Cursor(r.x, r.y, 0))
    else
      var prev := Run(items[..|items| - 1], r, spacing);
      var s := items[|items| - 1];
      Layout(prev.at + [Origin(prev.cursor, s, r, spacing)], Advance(prev.cursor, s, r, spacing))
  }

  /** The value `doLayout` returns: the bottom of the last row, relative to the top of `r`. */
  function Height(items: seq<Size>, r: Rect, spacing: int): int {
    var c := Run(items, r, spacing).cursor;
    c.y + c.lineHeight - r.y
  }

  /** Placing more items never moves the ones already placed. */
  lemma {:induction false} RunPrefix(items: seq<Size>, r: Rect, spacing: int, k: nat)
    requires k <= |items|
    ensures Run(items[..k], r, spacing).at == Run(items, r, spacing).at[..k]
    decreases |items|
  {
    if k < |items| {
      var init := items[..|items| - 1];
      assert init[..k] == items[..k];
      RunPrefix(init, r, spacing, k);
    } else {
      assert items[..k] == items;
    }
  }

  /** Item `k` is placed with the loop variables left by the items before it. */
  lemma PlacedAfter(items: seq<Size>, r: Rect, spacing: int, k: nat)
    requires k < |items|
    ensures Run(items, r, spacing).at[k] == Origin(Run(items[..k], r, spacing).cursor, items[k], r, spacing)
    ensures Run(items[..k + 1], r, spacing).cursor == Advance(Run(items[..k], r, spacing).cursor, items[k], r, spacing)
  {
    RunPrefix(items, r, spacing, k + 1);
    assert items[..k + 1][..k] == items[..k];
  }

  /** The first item goes to the top-left corner of the rectangle. */
  lemma FirstAtTopLeft(items: seq<Size>, r: Rect, spacing: int)
    requires |items| > 0
    ensures Run(items, r, spacing).at[0] == Point(r.x, r.y)
  {
    PlacedAfter(items, r, spacing, 0);
  }

  predicate PositiveHeights(items: seq<Size>) {
    forall i :: 0 <= i < |items| ==> items[i].height > 0
  }

  /**
   * Two neighbours either share a row, the second `spacing` to the right of
   * the first (and, when every item has height, inside the right edge), or
   * the second starts a lower row at the left edge.
   */
  lemma Neighbours(items: seq<Size>, r: Rect, spacing: int, k: nat)
    requires spacing >= 0 && 0 < k < |items|
    ensures var at := Run(items, r, spacing).at;
      (at[k].y == at[k - 1].y && at[k].x == at[k - 1].x + items[k - 1].width + spacing
        && (PositiveHeights(items) ==> at[k].x + items[k].width <= Right(r)))
      || (at[k].x == r.x && at[k].y > at[k - 1].y)
  {
    var at := Run(items, r, spacing).at;
    PlacedAfter(items, r, spacing, k - 1);
    PlacedAfter(items, r, spacing, k);
    var c := Run(items[..k], r, spacing).cursor;
    assert c.x == at[k - 1].x + items[k - 1].width + spacing && c.y == at[k - 1].y;
    if PositiveHeights(items) {
      assert c.lineHeight >= items[k - 1].height > 0;
    }
  }

  /** Every item lies between the top of the rectangle and the height `doLayout` reports. */
  lemma {:induction false} ItemsWithinHeight(items: seq<Size>, r: Rect, spacing: int)
    requires spacing >= 0
    ensures var l := Run(items, r, spacing);
      l.cursor.y >= r.y
      && forall k :: 0 <= k < |items| ==>
        r.y <= l.at[k].y && l.at[k].y + items[k].height <= r.y + Height(items, r, spacing)
  {
    if |items| > 0 {
      var init := items[..|items| - 1];
      ItemsWithinHeight(init, r, spacing);
      var prev := Run(init, r, spacing);
      var l := Run(items, r, spacing);
      assert l.cursor.y + l.cursor.lineHeight >= prev.cursor.y + prev.cursor.lineHeight;
      forall k | 0 <= k < |items|
        ensures r.y <= l.at[k].y && l.at[k].y + items[k].height <= r.y + Height(items, r, spacing)
      {
        if k < |init| {
          assert l.at[k] == prev.at[k] && items[k] == init[k];
        }
      }
    }
  }

  /**
   * With non-negative spacing the items of one row share their `y`, and the
   * final line height is the largest height on the last row (0 when none is
   * positive); every item lies on or above that row.
   */
  lemma {:induction false} LineHeightIsRowMax(items: seq<Size>, r: Rect, spacing: int)
    requires spacing >= 0
    ensures var l := Run(items, r, spacing);
      (forall k :: 0 <= k < |items| ==> l.at[k].y <= l.cursor.y)
      && (forall k :: 0 <= k < |items| && l.at[k].y == l.cursor.y ==> items[k].height <= l.cursor.lineHeight)
      && (l.cursor.lineHeight == 0
          || exists k :: 0 <= k < |items| && l.at[k].y == l.cursor.y && items[k].height == l.cursor.lineHeight)
  {
    if |items| > 0 {
      var init := items[..|items| - 1];
      var last := |items| - 1;
      LineHeightIsRowMax(init, r, spacing);
      var prev := Run(init, r, spacing);
      var l := Run(items, r, spacing);
      assert forall k :: 0 <= k < |init| ==> l.at[k] == prev.at[k] && items[k] == init[k];
      assert l.at[last] == Origin(prev.cursor, items[last], r, spacing);
      if Wraps(prev.cursor, items[last], r) {
        assert l.cursor.y > prev.cursor.y;
      } else if l.cursor.lineHeight != prev.cursor.lineHeight {
        assert items[last].height == l.cursor.lineHeight;
      }
    }
  }

  /**
   * `doLayout(rect, testOnly)`: returns the geometry set on each item (none
   * when `testOnly`) and the height of the laid-out rows.
   */
  method DoLayout(items: seq<Size>, rect: Rect, spacing: int, testOnly: bool) returns (geometries: seq<Rect>, height: int)
    ensures height == Height(items, rect, spacing)
    ensures testOnly ==> geometries == []
    ensures !testOnly ==> |geometries| == |items| && forall k :: 0 <= k < |items| ==>
      geometries[k] == Rect(Run(items, rect, spacing).at[k].x, Run(items, rect, spacing).at[k].y, items[k].width, items[k].height)
  {
    var x := rect.x;
    var y := rect.y;
    var lineHeight := 0;
    geometries := [];
    var i := 0;
    while i < |items|
      invariant 0 <= i <= |items|
      invariant Cursor(x, y, lineHeight) == Run(items[..i], rect, spacing).cursor
      invariant testOnly ==> geometries == []
      invariant !testOnly ==> |geometries| == i && forall k :: 0 <= k < i ==>
        geometries[k] == Rect(Run(items[..i], rect, spacing).at[k].x, Run(items[..i], rect, spacing).at[k].y, items[k].width, items[k].height)
    {
      var item := items[i];
      var spaceX := spacing;
      var spaceY := spacing;
      var nextX := x + item.width + spaceX;
      if nextX - spaceX > Right(rect) && lineHeight > 0 {
        x := rect.x;
        y := y + lineHeight + spaceY;
        nextX := x + item.width + spaceX;
        lineHeight := 0;
      }
      PlacedAfter(items, rect, spacing, i);
      RunPrefix(items, rect, spacing, i);
      RunPrefix(items, rect, spacing, i + 1);
      if !testOnly {
        geometries := geometries + [Rect(x, y, item.width, item.height)];
      }
      x := nextX;
      lineHeight := Max(lineHeight, item.height);
      i := i + 1;
    }
    assert items[..i] == items;
    height := y + lineHeight - rect.y;
  }

  /** `heightForWidth(width)`: the height a dry run reports in a rectangle of that width at the origin. */
  function HeightForWidth(items: seq<Size>, width: int, spacing: int): (h: int)
    requires spacing >= 0
    ensures h >= 0
    ensures forall k :: 0 <= k < |items| ==> items[k].height <= h
    ensures |items| == 0 ==> h == 0
  {
    ItemsWithinHeight(items, Rect(0, 0, width, 0), spacing);
    Height(items, Rect(0, 0, width, 0), spacing)
  }

  /** `itemAt(index)`: the item at an index inside the list, otherwise `None`. */
  function ItemAt<T>(list: seq<T>, index: int): (r: Option<T>)
    ensures r.Some? <==> 0 <= index < |list|
    ensures r.Some? ==> r.value == list[index]
  {
    if 0 <= index < |list| then Some(list[index]) else None
  }

  /** `takeAt(index)`: removes and returns the item at an index inside the list; otherwise nothing changes. */
  function TakeAt<T>(list: seq<T>, index: int): (r: (Option<T>, seq<T>))
    ensures r.0 == ItemAt(list, index)
    ensures r.0.None? ==> r.1 == list
    ensures r.0.Some? ==> |r.1| == |list| - 1
    ensures r.0.Some? ==> forall j :: 0 <= j < index ==> r.1[j] == list[j]
    ensures r.0.Some? ==> forall j :: index <= j < |r.1| ==> r.1[j] == list[j + 1]
  {
    if 0 <= index < |list| then
      var rest := list[..index] + list[index + 1..];
      assert forall j :: 0 <= j < index ==> rest[j] == list[j];
      assert forall j :: index <= j < |rest| ==> rest[j] == list[j + 1];
      (Some(list[index]), rest)
    else (None, list)
  }

  /** Putting a taken item back where it was restores the list. */
  lemma TakeAtRestore<T>(list: seq<T>, index: int)
    requires 0 <= index < |list|
    ensures var (item, rest) := TakeAt(list, index);
      rest[..index] + [item.value] + rest[index..] == list
  {
    var rest := TakeAt(list, index).1;
    assert rest[..index] == list[..index];
    assert rest[index..] == list[index + 1..];
  }

  /** The destructor: `takeAt(0)` until it returns `None`; every item comes out, in order. */
  method ClearAll<T>(list: seq<T>) returns (taken: seq<T>, rest: seq<T>)
    ensures rest == [] && taken == list
  {
    taken := [];
    rest := list;
    var item := TakeAt(rest, 0);
    while item.0.Some?
      invariant taken + rest == list
      invariant item == TakeAt(rest, 0)
      decreases |rest|
    {
      taken := taken + [item.0.value];
      rest := item.1;
      item := TakeAt(rest, 0);
    }
  }

  /** The component-wise maximum, `QSize.expandedTo`. */
  function ExpandedTo(a: Size, b: Size): Size {
    Size(Max(a.width, b.width), Max(a.height, b.height))
  }

  /** The largest item minimum size, starting from the invalid `QSize()` of -1 by -1. */
  function LargestMinimum(mins: seq<Size>): (s: Size)
    ensures forall i :: 0 <= i < |mins| ==> mins[i].width <= s.width && mins[i].height <= s.height
    ensures s.width == -1 || exists i :: 0 <= i < |mins| && s.width == mins[i].width
    ensures s.height == -1 || exists i :: 0 <= i < |mins| && s.height == mins[i].height
    ensures s.width >= -1 && s.height >= -1
  {
    if |mins| == 0 then Size(-1, -1)
    else
      var prev := LargestMinimum(mins[..|mins| - 1]);
      assert forall i :: 0 <= i < |mins| - 1 ==> mins[..|mins| - 1][i] == mins[i];
      ExpandedTo(prev, mins[|mins| - 1])
  }

  /** `minimumSize()`: the largest item minimum size grown by the contents margins. */
  function MinimumSize(mins: seq<Size>, left: int, top: int, right: int, bottom: int): (s: Size)
    ensures forall i :: 0 <= i < |mins| ==>
      mins[i].width + left + right <= s.width && mins[i].height + top + bottom <= s.height
    ensures |mins| == 0 ==> s == Size(left + right - 1, top + bottom - 1)
  {
    var m := LargestMinimum(mins);
    Size(m.width + left + right, m.height + top + bottom)
  }
}

=== FILE: image_merger.dfy ===
/**
 * The image merger window (gui/image_merger_gui.py `ImageMergerGUI`): a
 * list of image paths, filled by dropping files, written as one PDF. The
 * images themselves are abstract: each path has a mode, or cannot be
 * opened.
 */
module ImageMerger {
  import opened Optional
  import opened PyText
  import Imaging

  /** `SUPPORTED_FORMATS`. */
  const SupportedFormats: seq<string> := [".tif", ".tiff", ".png", ".jpg", ".jpeg", ".bmp", ".gif"]

  /** `any(path.lower().endswith(ext) for ext in SUPPORTED_FORMATS)`. */
  predicate Supported(path: string) {
    exists k :: 0 <= k < |SupportedFormats| && EndsWithIgnoreCase(path, SupportedFormats[k])
  }

  /** `dropEvent`: the dropped paths with a supported extension, as dropped (not lower-cased), in drop order. */
  function DroppedImages(paths: seq<string>): (r: seq<string>)
    ensures |r| <= |paths|
    ensures forall i :: 0 <= i < |r| ==> r[i] in paths && Supported(r[i])
    ensures forall i :: 0 <= i < |paths| && Supported(paths[i]) ==> paths[i] in r
  {
    if |paths| == 0 then []
    else (if Supported(paths[0]) then [paths[0]] else []) + DroppedImages(paths[1..])
  }

  /** Two drops in a row add what each adds, in that order. */
  lemma {:induction false} DroppedAppend(a: seq<string>, b: seq<string>)
    ensures DroppedImages(a + b) == DroppedImages(a) + DroppedImages(b)
  {
    if |a| > 0 {
      assert (a + b)[1..] == a[1..] + b;
      DroppedAppend(a[1..], b);
    } else {
      assert a + b == b;
    }
  }

  /** An upper-case extension is accepted, and the path is kept as dropped. */
  lemma UpperCaseExtensionKept()
    ensures DroppedImages(["SCAN.PNG", "notes.txt"]) == ["SCAN.PNG"]
  {
    assert EndsWithIgnoreCase("SCAN.PNG", SupportedFormats[2]);
    assert DroppedImages(["notes.txt"]) == [] by {
      assert !Supported("notes.txt") by {
        assert Lower("notes.txt") == "notes.txt";
      }
      assert ["notes.txt"][1..] == [];
    }
    assert ["SCAN.PNG", "notes.txt"][1..] == ["notes.txt"];
  }

  /** `img_path + '_temp.jpg'`: where a converted copy is saved. */
  function TempPath(path: string): (t: string)
    ensures |t| == |path| + 9 && t[..|path|] == path
  {
    path + "_temp.jpg"
  }

  /** The image at `path` opens and its mode is one `perform_merge` converts to RGB. */
  predicate NeedsCopy(path: string, modeOf: string -> Option<string>) {
    modeOf(path).Some? && Imaging.NeedsRgb(modeOf(path).value)
  }

  /** The path handed to the PDF writer for one listed image. */
  function Source(path: string, modeOf: string -> Option<string>): string {
    if NeedsCopy(path, modeOf) then TempPath(path) else path
  }

  /** The temporary copies made for `paths`, in list order. */
  function Temps(paths: seq<string>, modeOf: string -> Option<string>): (t: seq<string>)
    ensures |t| <= |paths|
    ensures forall i :: 0 <= i < |paths| && NeedsCopy(paths[i], modeOf) ==> TempPath(paths[i]) in t
  {
    if |paths| == 0 then []
    else
      var init := paths[..|paths| - 1];
      var last := paths[|paths| - 1];
      var t := Temps(init, modeOf);
      assert forall i :: 0 <= i < |init| ==> init[i] == paths[i];
      t + (if NeedsCopy(last, modeOf) then [TempPath(last)] else [])
  }

  /** Some listed image that needs converting has `t` as its copy. */
  predicate CopyOfListed(paths: seq<string>, modeOf: string -> Option<string>, t: string) {
    exists i :: 0 <= i < |paths| && NeedsCopy(paths[i], modeOf) && t == TempPath(paths[i])
  }

  /** Every temporary copy belongs to a listed image that needs converting. */
  lemma {:induction false} TempsFromListed(paths: seq<string>, modeOf: string -> Option<string>)
    ensures forall k :: 0 <= k < |Temps(paths, modeOf)| ==> CopyOfListed(paths, modeOf, Temps(paths, modeOf)[k])
  {
    if |paths| > 0 {
      var init := paths[..|paths| - 1];
      var last := paths[|paths| - 1];
      TempsFromListed(init, modeOf);
      var a := Temps(init, modeOf);
      var t := Temps(paths, modeOf);
      assert t == a + (if NeedsCopy(last, modeOf) then [TempPath(last)] else []);
      forall k | 0 <= k < |t|
        ensures CopyOfListed(paths, modeOf, t[k])
      {
        if k < |a| {
          assert t[k] == a[k];
          var i :| 0 <= i < |init| && NeedsCopy(init[i], modeOf) && a[k] == TempPath(init[i]);
          assert paths[i] == init[i];
        } else {
          assert t[k] == TempPath(paths[|paths| - 1]);
        }
      }
    }
  }

  /** Every image opens. */
  predicate AllOpen(paths: seq<string>, modeOf: string -> Option<string>) {
    forall i :: 0 <= i < |paths| ==> modeOf(paths[i]).Some?
  }

  /**
   * The loop gets past the image at `path`: it opens and, when it needs
   * converting, its JPEG copy is saved (`canSave` of the copy's path).
   */
  predicate Converts(path: string, modeOf: string -> Option<string>, canSave: string -> bool) {
    modeOf(path).Some? && (Imaging.NeedsRgb(modeOf(path).value) ==> canSave(TempPath(path)))
  }

  /** Every image opens and every copy is saved. */
  predicate AllConvert(paths: seq<string>, modeOf: string -> Option<string>, canSave: string -> bool) {
    forall i :: 0 <= i < |paths| ==> Converts(paths[i], modeOf, canSave)
  }

  /** When every copy can be saved, the loop gets through the list exactly when every image opens. */
  lemma AllConvertWhenSavesSucceed(paths: seq<string>, modeOf: string -> Option<string>, canSave: string -> bool)
    requires forall i :: 0 <= i < |paths| ==> canSave(TempPath(paths[i]))
    ensures AllConvert(paths, modeOf, canSave) <==> AllOpen(paths, modeOf)
  {
  }

  datatype MergeOutcome =
    | TooFew
    | Cancelled
      /**
       * An image did not open, a copy was not saved or the PDF was not
       * written; `leftover` are the temporary copies already saved, which
       * stay on disk.
       */
    | Failed(leftover: seq<string>)
      /** The PDF at `path` was written from `sources`; `removed` are the temporary copies deleted afterwards. */
    | Merged(path: string, sources: seq<string>, removed: seq<string>)

  /**
   * The copies left behind when the image at index `j` is the first the
   * loop does not get past, or none fails (`j == |paths|`). A copy whose
   * save raises is not among them: Pillow deletes a file it created when
   * `save` fails.
   */
  predicate LeftBehind(paths: seq<string>, modeOf: string -> Option<string>, canSave: string -> bool, j: nat, leftover: seq<string>) {
    j <= |paths|
    && (forall i :: 0 <= i < j ==> Converts(paths[i], modeOf, canSave))
    && (j < |paths| ==> !Converts(paths[j], modeOf, canSave))
    && leftover == Temps(paths[..j], modeOf)
  }

  /**
   * The conversion loop of `perform_merge`: each image is opened in list
   * order; one that needs converting is saved as a JPEG copy, whose path
   * replaces it. `ok` is false when an image does not open or its copy is
   * not saved, which ends the loop.
   */
  method ConvertImages(paths: seq<string>, modeOf: string -> Option<string>, canSave: string -> bool)
    returns (ok: bool, sources: seq<string>, temps: seq<string>)
    ensures ok <==> AllConvert(paths, modeOf, canSave)
    ensures ok ==> |sources| == |paths| && forall i :: 0 <= i < |paths| ==> sources[i] == Source(paths[i], modeOf)
    ensures ok ==> temps == Temps(paths, modeOf)
    ensures exists j :: LeftBehind(paths, modeOf, canSave, j, temps)
  {
    sources := [];
    temps := [];
    var i := 0;
    while i < |paths|
      invariant 0 <= i <= |paths|
      invariant |sources| == i
      invariant forall k :: 0 <= k < i ==> Converts(paths[k], modeOf, canSave) && sources[k] == Source(paths[k], modeOf)
      invariant temps == Temps(paths[..i], modeOf)
    {
      var path := paths[i];
      var mode := modeOf(path);
      if mode.None? {
        assert LeftBehind(paths, modeOf, canSave, i, temps);
        return false, sources, temps;
      }
      assert paths[..i + 1][..i] == paths[..i];
      if Imaging.NeedsRgb(mode.value) {
        if !canSave(TempPath(path)) {
          assert LeftBehind(paths, modeOf, canSave, i, temps);
          return false, sources, temps;
        }
        sources := sources + [TempPath(path)];
        temps := temps + [TempPath(path)];
      } else {
        sources := sources + [path];
      }
      i := i + 1;
    }
    assert paths[..|paths|] == paths;
    assert LeftBehind(paths, modeOf, canSave, |paths|, temps);
    ok := true;
  }

  /**
   * `perform_merge` over the listed `paths`: `savePath` is the dialog's
   * answer (empty when cancelled), `modeOf` the mode of each image
   * (`None` when it does not open), `canSave` whether a temporary JPEG
   * copy is saved and `canWrite` whether the PDF is written. Returns the
   * outcome and the list afterwards.
   */
  method PerformMerge(paths: seq<string>, savePath: string, modeOf: string -> Option<string>,
                      canSave: string -> bool, canWrite: string -> bool)
    returns (outcome: MergeOutcome, after: seq<string>)
    ensures outcome == TooFew <==> |paths| < 2
    ensures outcome == Cancelled <==> |paths| >= 2 && savePath == ""
    ensures outcome.Merged? <==>
      |paths| >= 2 && savePath != "" && AllConvert(paths, modeOf, canSave) && canWrite(savePath)
    ensures outcome.Merged? ==> outcome.path == savePath && |outcome.sources| == |paths|
    ensures outcome.Merged? ==> forall i :: 0 <= i < |paths| ==> outcome.sources[i] == Source(paths[i], modeOf)
    ensures outcome.Merged? ==> outcome.removed == Temps(paths, modeOf)
    ensures outcome.Failed? ==> exists j :: LeftBehind(paths, modeOf, canSave, j, outcome.leftover)
    ensures after == if outcome.Merged? then [] else paths
  {
    if |paths| < 2 {
      return TooFew, paths;
    }
    if savePath == "" {
      return Cancelled, paths;
    }
    var ok, sources, temps := ConvertImages(paths, modeOf, canSave);
    if !ok || !canWrite(savePath) {
      return Failed(temps), paths;
    }
    return Merged(savePath, sources, temps), [];
  }

  /** A list without images that need converting makes no temporary copy and writes the listed paths themselves. */
  lemma {:induction false} NoCopiesWithoutConversion(paths: seq<string>, modeOf: string -> Option<string>)
    requires forall i :: 0 <= i < |paths| ==> !NeedsCopy(paths[i], modeOf)
    ensures Temps(paths, modeOf) == []
    ensures forall i :: 0 <= i < |paths| ==> Source(paths[i], modeOf) == paths[i]
  {
    if |paths| > 0 {
      NoCopiesWithoutConversion(paths[..|paths| - 1], modeOf);
    }
  }

  /** One temporary copy per image that needs converting. */
  lemma {:induction false} OneCopyPerConversion(paths: seq<string>, modeOf: string -> Option<string>)
    ensures |Temps(paths, modeOf)| == CountCopies(paths, modeOf)
  {
    if |paths| > 0 {
      OneCopyPerConversion(paths[..|paths| - 1], modeOf);
    }
  }

  /** How many listed images need converting. */
  function CountCopies(paths: seq<string>, modeOf: string -> Option<string>): (c: nat)
    ensures c <= |paths|
  {
    if |paths| == 0 then 0
    else CountCopies(paths[..|paths| - 1], modeOf) + (if NeedsCopy(paths[|paths| - 1], modeOf) then 1 else 0)
  }
}

=== FILE: image_splitter.dfy ===
/** Pillow image modes as the image panels inspect them. */
module Imaging {

  /** `img.mode in ('RGBA', 'P', 'LA')`: the modes converted to RGB before they can be saved as JPEG. */
  predicate NeedsRgb(mode: string) {
    mode == "RGBA" || mode == "P" || mode == "LA"
  }
}

/**
 * The TIFF splitter panel (gui/image_splitter_gui.py): reading the range
 * table, naming outputs, expanding each range into the files written,
 * the Tab and delete-row buttons, and counting the frames of a loaded TIFF.
 * A TIFF is an abstract document of `n` frames, numbered from 0.
 */
module ImageSplitter {
  import opened Optional
  import opened PyText
  import opened Imaging
  import opened PdfSplitter
  import SplitterTable

  /** One table row: start spin (1..9999), end spin (0..9999, 0 shown blank) and name text. */
  datatype SpinRow = SpinRow(start: int, end: int, name: string)

  /** One file written: its name, the frames it holds in order, and whether they were converted to RGB. */
  datatype OutFile = OutFile(name: string, frames: seq<nat>, toRgb: bool)

  /** How `split_tiff` ends. `Failed` keeps the files saved before a frame seek raised. */
  datatype TiffOutcome =
    | NoTiffSelected
    | NoRanges
    | FolderNotChosen
    | Saved(files: seq<OutFile>)
    | Failed(files: seq<OutFile>)

  predicate StartsInRange(rows: seq<SpinRow>) {
    forall i :: 0 <= i < |rows| ==> 1 <= rows[i].start <= SplitterTable.SpinMax
  }

  /** `ext_map.get(output_format, 'png')` for the lower-cased format name. */
  function Extension(format: string): (ext: string)
    ensures '.' !in ext && |ext| == 3
  {
    if format == "png" then "png"
    else if format == "jpeg" then "jpg"
    else if format == "tiff" then "tif"
    else "png"
  }

  /** The output name: the name without its last extension, the date stamp, the extension. */
  function OutName(name: string, stamp: string, ext: string): (o: string)
    ensures EndsWith(o, "_" + stamp + "." + ext)
  {
    var base := if '.' in name then DropExtension(name) else name;
    EndsWithAppend(base, "_" + stamp + "." + ext);
    assert base + "_" + stamp + "." + ext == base + ("_" + stamp + "." + ext);
    base + "_" + stamp + "." + ext
  }

  /** A row takes part when its trimmed name is non-empty and its end is above 0. */
  predicate Used(row: SpinRow) {
    Strip(row.name) != [] && row.end > 0
  }

  predicate AnyUsed(rows: seq<SpinRow>) {
    exists i :: 0 <= i < |rows| && Used(rows[i])
  }

  /** The range a used row contributes. */
  function ToRange(row: SpinRow, stamp: string, ext: string): PageRange {
    PageRange(row.start, row.end, OutName(Strip(row.name), stamp, ext))
  }

  /** The ranges read from the table, in table order. */
  function CollectRanges(rows: seq<SpinRow>, stamp: string, ext: string): (ranges: seq<PageRange>)
    ensures |ranges| <= |rows|
    ensures ranges == [] <==> !AnyUsed(rows)
  {
    if |rows| == 0 then []
    else
      var last := rows[|rows| - 1];
      AnyUsedSnoc(rows);
      CollectRanges(rows[..|rows| - 1], stamp, ext) + (if Used(last) then [ToRange(last, stamp, ext)] else [])
  }

  lemma AnyUsedSnoc(rows: seq<SpinRow>)
    requires |rows| > 0
    ensures AnyUsed(rows) <==> AnyUsed(rows[..|rows| - 1]) || Used(rows[|rows| - 1])
  {
    var init := rows[..|rows| - 1];
    assert forall i :: 0 <= i < |init| ==> init[i] == rows[i];
  }

  /** Each collected range is the range of some used row. */
  lemma {:induction false} CollectedFrom(rows: seq<SpinRow>, stamp: string, ext: string)
    ensures forall k :: 0 <= k < |CollectRanges(rows, stamp, ext)| ==>
      exists i :: 0 <= i < |rows| && Used(rows[i]) && CollectRanges(rows, stamp, ext)[k] == ToRange(rows[i], stamp, ext)
  {
    if |rows| > 0 {
      var init := rows[..|rows| - 1];
      var last := rows[|rows| - 1];
      CollectedFrom(init, stamp, ext);
      var a := CollectRanges(init, stamp, ext);
      var b := if Used(last) then [ToRange(last, stamp, ext)] else [];
      var rs := CollectRanges(rows, stamp, ext);
      assert rs == a + b;
      forall k | 0 <= k < |rs|
        ensures exists i :: 0 <= i < |rows| && Used(rows[i]) && rs[k] == ToRange(rows[i], stamp, ext)
      {
        if k < |a| {
          var i :| 0 <= i < |init| && Used(init[i]) && a[k] == ToRange(init[i], stamp, ext);
          assert rows[i] == init[i] && rs[k] == a[k];
        } else {
          assert rs[k] == ToRange(rows[|rows| - 1], stamp, ext);
        }
      }
    } else {
      assert CollectRanges(rows, stamp, ext) == [];
    }
  }

  /** Every output name ends in `_<stamp>.<ext>` after a base without the name's old extension. */
  lemma OutNameShape(name: string, stamp: string, ext: string)
    requires '.' !in ext
    ensures DropExtension(OutName(name, stamp, ext)) == DropExtension(name) + "_" + stamp
    ensures EndsWith(OutName(name, stamp, ext), "." + ext)
  {
    var base := DropExtension(name) + "_" + stamp;
    OutNameParts(name, stamp, ext);
    DropExtensionOfJoin(base, ext);
    EndsWithAppend(base, "." + ext);
  }

  lemma OutNameParts(name: string, stamp: string, ext: string)
    ensures OutName(name, stamp, ext) == DropExtension(name) + "_" + stamp + "." + ext
    ensures OutName(name, stamp, ext) == (DropExtension(name) + "_" + stamp) + ("." + ext)
  {
    if '.' !in name {
      assert DropExtension(name) == name;
    }
  }

  /** `f"{base_name}_p{page_num + 1:03d}.{ext}"`: one file per frame, numbered from 1. */
  function FrameName(base: string, frame: nat, ext: string): (n: string)
    ensures |base| <= |n| && n[..|base|] == base
    ensures EndsWith(n, "." + ext)
  {
    var front := base + "_p" + ZeroPad(frame + 1, 3);
    EndsWithAppend(front, "." + ext);
    assert front + "." + ext == front + ("." + ext);
    assert (front + "." + ext)[..|base|] == base;
    front + "." + ext
  }

  /** The page number in a per-frame name reads back as the 1-based frame number, in at least three digits. */
  lemma FrameNameRoundTrip(base: string, frame: nat, ext: string)
    ensures var digits := ZeroPad(frame + 1, 3);
      FrameName(base, frame, ext) == base + "_p" + digits + "." + ext
      && |digits| >= 3 && ParseDecimal(digits) == frame + 1
  {
    ZeroPadRoundTrip(frame + 1, 3);
  }

  /** Different frames of one range never share a file name. */
  lemma FrameNamesDistinct(base: string, a: nat, b: nat, ext: string)
    requires a != b
    ensures FrameName(base, a, ext) != FrameName(base, b, ext)
  {
    var da := ZeroPad(a + 1, 3);
    var db := ZeroPad(b + 1, 3);
    if FrameName(base, a, ext) == FrameName(base, b, ext) {
      CancelMiddle(base + "_p", da, db, ".", ext);
      ZeroPadInjective(a + 1, b + 1, 3);
    }
  }

  /** Whether a frame is converted to RGB before saving: only for JPEG output of RGBA, P and LA frames. */
  function ConvertToRgb(format: string, mode: string): bool {
    format == "jpeg" && NeedsRgb(mode)
  }

  /** The frames `from, from + 1, ..., to - 1`. */
  function FrameRange(from: nat, to: int): (r: seq<nat>)
    ensures |r| == Max(0, to - from)
    ensures forall k :: 0 <= k < |r| ==> r[k] == from + k
  {
    seq(Max(0, to - from), k requires 0 <= k < Max(0, to - from) => from + k)
  }

  /**
   * The files written for one range of a TIFF with `n` frames, and whether
   * every frame seek succeeded (seeking frame `n` or later raises).
   */
  function RangeFiles(r: PageRange, format: string, ext: string, n: nat, modeOf: nat -> string): (res: (seq<OutFile>, bool))
    requires r.start >= 1
    ensures res.1 <==> Seekable(r.start, r.end, n)
    ensures r.start == r.end ==> |res.0| == (if res.1 then 1 else 0)
    ensures r.start == r.end && res.1 ==> res.0[0].name == r.name && res.0[0].frames == [r.start - 1]
    ensures r.start != r.end && format == "tiff" ==>
      (|res.0| == 1 <==> r.start < r.end <= n) && |res.0| <= 1
      && (|res.0| == 1 ==> res.0[0].name == r.name && res.0[0].frames == PageIndices(r, n))
    ensures r.start != r.end && format != "tiff" ==>
      var idx := PageIndices(r, n);
      |res.0| == |idx| && forall k :: 0 <= k < |idx| ==>
        res.0[k].frames == [idx[k]] && res.0[k].name == FrameName(DropExtension(r.name), idx[k], ext)
    ensures forall k :: 0 <= k < |res.0| ==>
      |res.0[k].frames| >= 1 && (res.0[k].toRgb <==> format == "jpeg" && NeedsRgb(modeOf(res.0[k].frames[0])))
  {
    if r.start == r.end then
      if r.start - 1 < n then ([OutFile(r.name, [r.start - 1], ConvertToRgb(format, modeOf(r.start - 1)))], true)
      else ([], false)
    else if format == "tiff" then
      if r.start < r.end && r.end > n then ([], false)
      else
        var frames := FrameRange(r.start - 1, r.end);
        (if |frames| > 0 then [OutFile(r.name, frames, false)] else [], true)
    else
      var base := DropExtension(r.name);
      var frames := FrameRange(r.start - 1, Min(r.end, n));
      var files := seq(|frames|, k requires 0 <= k < |frames| =>
        OutFile(FrameName(base, frames[k], ext), [frames[k]], ConvertToRgb(format, modeOf(frames[k]))));
      (files, !(r.start < r.end && r.end > n))
  }

  /** The `for start_page, end_page, out_name in ranges` loop: stops at the first range whose seek raises. */
  function SplitRanges(ranges: seq<PageRange>, format: string, ext: string, n: nat, modeOf: nat -> string): (res: (seq<OutFile>, bool))
    requires ValidStarts(ranges)
    ensures res.1 <==> RangesSeekable(ranges, n)
    ensures |ranges| > 0 ==> RangeFiles(ranges[0], format, ext, n, modeOf).0 <= res.0
    ensures |ranges| > 0 && RangeFiles(ranges[0], format, ext, n, modeOf).1 ==>
      res.0 == RangeFiles(ranges[0], format, ext, n, modeOf).0 + SplitRanges(ranges[1..], format, ext, n, modeOf).0
  {
    if |ranges| == 0 then ([], true)
    else
      var (files, ok) := RangeFiles(ranges[0], format, ext, n, modeOf);
      if !ok then (files, false)
      else
        var (rest, restOk) := SplitRanges(ranges[1..], format, ext, n, modeOf);
        (files + rest, restOk)
  }

  /** Every frame seek made for the range `s..e` of a TIFF with `n` frames succeeds. */
  predicate Seekable(s: int, e: int, n: nat) {
    s > e || e <= n
  }

  predicate RowsSeekable(rows: seq<SpinRow>, n: nat) {
    forall i :: 0 <= i < |rows| && Used(rows[i]) ==> Seekable(rows[i].start, rows[i].end, n)
  }

  predicate RangesSeekable(ranges: seq<PageRange>, n: nat) {
    forall i :: 0 <= i < |ranges| ==> Seekable(ranges[i].start, ranges[i].end, n)
  }

  /**
   * `split_tiff`. `folder` is the directory the dialog returns (`None` when
   * cancelled), `frameCount` the number of frames of the opened TIFF
   * (`None` when `Image.open` raises) and `modeOf` the mode of each frame.
   */
  function SplitTiff(tiffPath: string, rows: seq<SpinRow>, stamp: string, format: string,
                     folder: Option<string>, frameCount: Option<nat>, modeOf: nat -> string): (o: TiffOutcome)
    requires StartsInRange(rows)
    ensures tiffPath == "" ==> o == NoTiffSelected
    ensures tiffPath != "" && !AnyUsed(rows) ==> o == NoRanges
    ensures (o.Saved? || o.Failed?) ==> tiffPath != "" && folder.Some? && AnyUsed(rows)
    ensures o.Saved? <==>
      (tiffPath != "" && folder.Some? && frameCount.Some? && AnyUsed(rows) && RowsSeekable(rows, frameCount.value))
    ensures o.Failed? && frameCount.None? ==> o.files == []
    ensures o.Saved? ==> (CollectedStarts(rows, stamp, Extension(format)); o.files
      == SplitRanges(CollectRanges(rows, stamp, Extension(format)), format, Extension(format), frameCount.value, modeOf).0)
  {
    if tiffPath == "" then NoTiffSelected
    else
      var ext := Extension(format);
      var ranges := CollectRanges(rows, stamp, ext);
      if ranges == [] then NoRanges
      else if folder.None? then FolderNotChosen
      else if frameCount.None? then Failed([])
      else
        CollectedStarts(rows, stamp, ext);
        CollectedRangesOk(rows, stamp, ext, frameCount.value);
        var (files, ok) := SplitRanges(ranges, format, ext, frameCount.value, modeOf);
        if ok then Saved(files) else Failed(files)
  }

  /** One unfolding of `CollectRanges` at the last row. */
  lemma CollectStep(rows: seq<SpinRow>, stamp: string, ext: string)
    requires |rows| > 0
    ensures CollectRanges(rows, stamp, ext) == CollectRanges(rows[..|rows| - 1], stamp, ext)
      + (if Used(rows[|rows| - 1]) then [ToRange(rows[|rows| - 1], stamp, ext)] else [])
  {
  }

  /** Collecting from two tables placed one after the other is collecting from each in turn. */
  lemma {:induction false} CollectAppend(a: seq<SpinRow>, b: seq<SpinRow>, stamp: string, ext: string)
    ensures CollectRanges(a + b, stamp, ext) == CollectRanges(a, stamp, ext) + CollectRanges(b, stamp, ext)
    decreases |b|
  {
    if |b| == 0 {
      assert a + b == a;
    } else {
      var init := b[..|b| - 1];
      var last := b[|b| - 1];
      var tail := if Used(last) then [ToRange(last, stamp, ext)] else [];
      var ca := CollectRanges(a, stamp, ext);
      var ci := CollectRanges(init, stamp, ext);
      calc {
        CollectRanges(a + b, stamp, ext);
      == { assert (a + b)[..|a + b| - 1] == a + init;
           assert (a + b)[|a + b| - 1] == last;
           CollectStep(a + b, stamp, ext); }
        CollectRanges(a + init, stamp, ext) + tail;
      == { CollectAppend(a, init, stamp, ext); }
        (ca + ci) + tail;
      ==
        ca + (ci + tail);
      == { CollectStep(b, stamp, ext); }
        ca + CollectRanges(b, stamp, ext);
      }
    }
  }

  /** A single row contributes its range exactly when it is used. */
  lemma CollectSingle(row: SpinRow, stamp: string, ext: string)
    ensures CollectRanges([row], stamp, ext) == if Used(row) then [ToRange(row, stamp, ext)] else []
  {
    CollectStep([row], stamp, ext);
    assert [row][..0] == [];
  }

  /**
   * Rows contribute in table order: a used row `i` puts its range right
   * after those of the rows above it, and an unused row contributes nothing.
   */
  lemma CollectedAt(rows: seq<SpinRow>, i: nat, stamp: string, ext: string)
    requires i < |rows|
    ensures var above := CollectRanges(rows[..i], stamp, ext);
      CollectRanges(rows[..i + 1], stamp, ext)
        == above + (if Used(rows[i]) then [ToRange(rows[i], stamp, ext)] else [])
    ensures Used(rows[i]) ==>
      var k := |CollectRanges(rows[..i], stamp, ext)|;
      k < |CollectRanges(rows, stamp, ext)| && CollectRanges(rows, stamp, ext)[k] == ToRange(rows[i], stamp, ext)
  {
    assert rows[..i + 1] == rows[..i] + [rows[i]];
    assert rows == rows[..i + 1] + rows[i + 1..];
    CollectAppend(rows[..i], [rows[i]], stamp, ext);
    CollectSingle(rows[i], stamp, ext);
    CollectAppend(rows[..i + 1], rows[i + 1..], stamp, ext);
  }

  /** Every collected range starts at page 1 or later, as the spin boxes guarantee. */
  lemma {:induction false} CollectedStarts(rows: seq<SpinRow>, stamp: string, ext: string)
    requires StartsInRange(rows)
    ensures ValidStarts(CollectRanges(rows, stamp, ext))
  {
    if |rows| > 0 {
      var init := rows[..|rows| - 1];
      assert forall i :: 0 <= i < |init| ==> init[i] == rows[i];
      CollectedStarts(init, stamp, ext);
      CollectStep(rows, stamp, ext);
      var a := CollectRanges(init, stamp, ext);
      var b := if Used(rows[|rows| - 1]) then [ToRange(rows[|rows| - 1], stamp, ext)] else [];
      assert forall k :: 0 <= k < |a| ==> (a + b)[k] == a[k];
    }
  }

  lemma RangesSeekableAppend(a: seq<PageRange>, b: seq<PageRange>, n: nat)
    ensures RangesSeekable(a + b, n) <==> RangesSeekable(a, n) && RangesSeekable(b, n)
  {
    assert forall k :: 0 <= k < |a| ==> (a + b)[k] == a[k];
    assert forall k :: 0 <= k < |b| ==> (a + b)[|a| + k] == b[k];
  }

  lemma RowsSeekableSnoc(rows: seq<SpinRow>, n: nat)
    requires |rows| > 0
    ensures var last := rows[|rows| - 1];
      RowsSeekable(rows, n) <==> RowsSeekable(rows[..|rows| - 1], n) && (Used(last) ==> Seekable(last.start, last.end, n))
  {
    var init := rows[..|rows| - 1];
    assert forall i :: 0 <= i < |init| ==> init[i] == rows[i];
  }

  /** Every collected range can be seeked exactly when every used row can. */
  lemma {:induction false} CollectedRangesOk(rows: seq<SpinRow>, stamp: string, ext: string, n: nat)
    ensures RangesSeekable(CollectRanges(rows, stamp, ext), n) <==> RowsSeekable(rows, n)
  {
    if |rows| > 0 {
      var init := rows[..|rows| - 1];
      var last := rows[|rows| - 1];
      CollectedRangesOk(init, stamp, ext, n);
      var a := CollectRanges(init, stamp, ext);
      var b := if Used(last) then [ToRange(last, stamp, ext)] else [];
      CollectStep(rows, stamp, ext);
      RangesSeekableAppend(a, b, n);
      RowsSeekableSnoc(rows, n);
      assert RangesSeekable(b, n) <==> (Used(last) ==> Seekable(last.start, last.end, n)) by {
        if Used(last) {
          assert b[0].start == last.start && b[0].end == last.end;
        }
      }
    } else {
      assert CollectRanges(rows, stamp, ext) == [];
    }
  }

  /** A row added by Tab: start set to the next page (kept within the spin range), end blank, no name. */
  function NewRow(start: int): SpinRow {
    SpinRow(SplitterTable.SpinValue(start, SplitterTable.SpinMin, SplitterTable.SpinMax), 0, "")
  }

  /** Tab pressed in the name field of row `i`: the same next-row rule as the PDF splitter. */
  function TabPressed(rows: seq<SpinRow>, i: nat, total: nat): (r: seq<SpinRow>)
    requires i < |rows| && 0 <= rows[i].end
    ensures SplitterTable.NextRowStart(rows[i].end, total).None? ==> r == rows
    ensures SplitterTable.NextRowStart(rows[i].end, total).Some? ==>
      |r| == |rows| + 1 && r[..|rows|] == rows
      && r[|rows|] == SpinRow(Min(rows[i].end + 1, SplitterTable.SpinMax), 0, "")
  {
    match SplitterTable.NextRowStart(rows[i].end, total)
    case None => rows
    case Some(start) => rows + [NewRow(start)]
  }

  /** `remove_row`: a row is removed only while more than one remains; an index outside the table changes nothing. */
  function RemoveRow(rows: seq<SpinRow>, row: int): (r: seq<SpinRow>)
    ensures |rows| >= 1 ==> |r| >= 1
    ensures |r| == |rows| - 1 || r == rows
    ensures |r| == |rows| - 1 ==> 0 <= row < |rows| && r == rows[..row] + rows[row + 1..]
    ensures r == rows <==> |rows| <= 1 || row < 0 || row >= |rows|
  {
    if |rows| > 1 && 0 <= row < |rows| then rows[..row] + rows[row + 1..] else rows
  }

  /**
   * The frame count `load_tiff` stores: it counts up and seeks to each
   * count until the seek raises, so an image with `frames` frames reports
   * `frames` (and a one-frame reading for an image Pillow reports as empty).
   */
  method CountFrames(frames: nat) returns (total: nat)
    ensures total == Max(1, frames)
  {
    total := 0;
    while true
      invariant total == 0 || total < frames
      decreases frames - total
    {
      total := total + 1;
      if total >= frames {
        // img.seek(total) raises EOFError
        break;
      }
    }
  }
}

=== FILE: merger.dfy ===
/**
 * The PDF merger window (main.py `PageItem`, `MergerGUI`): a grid of pages
 * taken from dropped PDFs, each with a keep checkbox and a rotation, and
 * the plan `perform_merge` writes.
 */
module Merger {
  import opened Optional
  import opened PyText
  import FlowLayout

  /** One grid cell: the source file, the 0-based page in it, the rotation in degrees and the checkbox. */
  datatype PageItem = PageItem(file: string, index: nat, rotation: int, checked: bool)

  /** A page as it enters the grid: not rotated and ticked. */
  function NewPage(file: string, index: nat): (p: PageItem)
    ensures p.file == file && p.index == index
    ensures p.checked && p.rotation == 0
  {
    PageItem(file, index, 0, true)
  }

  predicate ValidRotation(p: PageItem) {
    p.rotation == 0 || p.rotation == 90 || p.rotation == 180 || p.rotation == 270
  }

  /** `rotate_page`: a quarter turn clockwise, kept below 360. */
  function Rotate(p: PageItem): (q: PageItem)
    requires ValidRotation(p)
    ensures ValidRotation(q)
    ensures q.file == p.file && q.index == p.index && q.checked == p.checked
    ensures q.rotation != p.rotation
  {
    p.(rotation := (p.rotation + 90) % 360)
  }

  /** `k` presses of the rotate button. */
  function RotateTimes(p: PageItem, k: nat): (q: PageItem)
    requires ValidRotation(p)
    ensures ValidRotation(q)
  {
    if k == 0 then p else Rotate(RotateTimes(p, k - 1))
  }

  /** After `k` presses the rotation is the start plus `k` quarter turns, modulo 360. */
  lemma {:induction false} RotateTimesAngle(p: PageItem, k: nat)
    requires ValidRotation(p)
    ensures RotateTimes(p, k) == p.(rotation := (p.rotation + 90 * k) % 360)
  {
    if k > 0 {
      RotateTimesAngle(p, k - 1);
      AddAfterMod(p.rotation + 90 * (k - 1), 90);
    }
  }

  /** Adding after reducing modulo 360 is adding before. */
  lemma AddAfterMod(x: int, y: int)
    ensures (x % 360 + y) % 360 == (x + y) % 360
  {
    var q := x / 360;
    assert x == 360 * q + x % 360;
    assert x + y == (x % 360 + y) + 360 * q;
  }

  /** Four presses restore the page. */
  lemma FourRotationsRestore(p: PageItem)
    requires ValidRotation(p)
    ensures RotateTimes(p, 4) == p
  {
    RotateTimesAngle(p, 4);
  }

  /** The pages `add_file_to_grid` appends for a PDF of `n` pages, in page order. */
  function AddFile(pages: seq<PageItem>, file: string, n: nat): (r: seq<PageItem>)
    ensures |r| == |pages| + n && r[..|pages|] == pages
    ensures forall i :: 0 <= i < n ==> r[|pages| + i] == NewPage(file, i)
  {
    pages + seq(n, i requires 0 <= i < n => NewPage(file, i))
  }

  /** `dropEvent`: only dropped paths ending in `.pdf`, in any case, are added. */
  function DroppedPdfs(paths: seq<string>): (r: seq<string>)
    ensures |r| <= |paths|
    ensures forall i :: 0 <= i < |r| ==> r[i] in paths && EndsWithIgnoreCase(r[i], ".pdf")
    ensures forall i :: 0 <= i < |paths| && EndsWithIgnoreCase(paths[i], ".pdf") ==> paths[i] in r
  {
    if |paths| == 0 then []
    else (if EndsWithIgnoreCase(paths[0], ".pdf") then [paths[0]] else []) + DroppedPdfs(paths[1..])
  }

  /** Dropping two batches of paths adds the PDFs of each, in order. */
  lemma {:induction false} DroppedPdfsAppend(a: seq<string>, b: seq<string>)
    ensures DroppedPdfs(a + b) == DroppedPdfs(a) + DroppedPdfs(b)
  {
    if |a| > 0 {
      assert (a + b)[1..] == a[1..] + b;
      DroppedPdfsAppend(a[1..], b);
    } else {
      assert a + b == b;
    }
  }

  /** A single dropped path is kept exactly when it ends in `.pdf`, in any case. */
  lemma DroppedPdfsSingle(path: string)
    ensures DroppedPdfs([path]) == if EndsWithIgnoreCase(path, ".pdf") then [path] else []
  {
    assert [path][1..] == [];
  }

  /** `toggle_all_selection(status)`: every checkbox takes `status`; nothing else changes. */
  function ToggleAll(pages: seq<PageItem>, status: bool): (r: seq<PageItem>)
    ensures |r| == |pages|
    ensures forall i :: 0 <= i < |r| ==> r[i] == pages[i].(checked := status)
  {
    seq(|pages|, i requires 0 <= i < |pages| => pages[i].(checked := status))
  }

  /** The ticked pages in grid order. */
  function Selected(pages: seq<PageItem>): (r: seq<PageItem>)
    ensures |r| <= |pages|
    ensures forall i :: 0 <= i < |r| ==> r[i].checked && r[i] in pages
    ensures forall i :: 0 <= i < |pages| && pages[i].checked ==> pages[i] in r
  {
    if |pages| == 0 then []
    else (if pages[0].checked then [pages[0]] else []) + Selected(pages[1..])
  }

  /** Selection distributes over concatenation, so grid order is kept. */
  lemma {:induction false} SelectedAppend(a: seq<PageItem>, b: seq<PageItem>)
    ensures Selected(a + b) == Selected(a) + Selected(b)
  {
    if |a| > 0 {
      SelectedAppend(a[1..], b);
      SelectedAppendStep(a, b);
    } else {
      assert a + b == b;
    }
  }

  lemma SelectedAppendStep(a: seq<PageItem>, b: seq<PageItem>)
    requires |a| > 0 && Selected(a[1..] + b) == Selected(a[1..]) + Selected(b)
    ensures Selected(a + b) == Selected(a) + Selected(b)
  {
    assert (a + b)[1..] == a[1..] + b;
    assert (a + b)[0] == a[0];
    SelectedFirst(a + b);
    SelectedFirst(a);
    AppendAssoc(if a[0].checked then [a[0]] else [], Selected(a[1..]), Selected(b));
  }

  /** One unfolding of `Selected` at the first page. */
  lemma SelectedFirst(pages: seq<PageItem>)
    requires |pages| > 0
    ensures Selected(pages) == (if pages[0].checked then [pages[0]] else []) + Selected(pages[1..])
  {
  }

  /** After ticking everything, the selection is the whole grid. */
  lemma {:induction false} SelectAll(pages: seq<PageItem>)
    ensures Selected(ToggleAll(pages, true)) == ToggleAll(pages, true)
  {
    if |pages| > 0 {
      SelectAll(pages[1..]);
      assert ToggleAll(pages, true)[1..] == ToggleAll(pages[1..], true);
    }
  }

  /** After unticking everything, nothing is selected. */
  lemma {:induction false} SelectNone(pages: seq<PageItem>)
    ensures Selected(ToggleAll(pages, false)) == []
  {
    if |pages| > 0 {
      SelectNone(pages[1..]);
      assert ToggleAll(pages, false)[1..] == ToggleAll(pages[1..], false);
    }
  }

  /**
   * One page added to the writer: which page of which file, the `rotate`
   * call made on it (if any), and `turn`, the degrees beyond the page's own
   * rotation in its file that the page object carries when it is added.
   */
  datatype WriteStep = WriteStep(file: string, index: nat, rotate: Option<int>, turn: int)

  predicate SamePage(p: PageItem, q: PageItem) {
    p.file == q.file && p.index == q.index
  }

  /** No page of any file is selected twice. */
  predicate DistinctPages(pages: seq<PageItem>) {
    forall i, j :: 0 <= i < j < |pages| ==> !SamePage(pages[i], pages[j])
  }

  /**
   * The turn the reader's page object for page `index` of `file` has
   * accumulated after the `rotate` calls made for `pages`. `perform_merge`
   * keeps one reader per file, `reader.pages[i]` returns the same object
   * each time, and `rotate` adds to that object's rotation in place.
   */
  function Turned(pages: seq<PageItem>, file: string, index: nat): (t: int)
    ensures (forall k :: 0 <= k < |pages| ==> !(pages[k].file == file && pages[k].index == index)) ==> t == 0
    ensures (forall k :: 0 <= k < |pages| ==> pages[k].rotation >= 0) ==> t >= 0
  {
    if |pages| == 0 then 0
    else
      var last := pages[|pages| - 1];
      Turned(pages[..|pages| - 1], file, index) + (if last.file == file && last.index == index then last.rotation else 0)
  }

  /** The writer steps as written: each added page carries every turn applied so far to its shared page object. */
  function Steps(pages: seq<PageItem>): (r: seq<WriteStep>)
    ensures |r| == |pages|
    ensures forall i :: 0 <= i < |pages| ==> r[i].file == pages[i].file && r[i].index == pages[i].index
    ensures forall i :: 0 <= i < |pages| ==>
      (r[i].rotate.None? <==> pages[i].rotation == 0) && (r[i].rotate.Some? ==> r[i].rotate.value == pages[i].rotation)
    ensures forall i :: 0 <= i < |pages| ==> r[i].turn == Turned(pages[..i + 1], pages[i].file, pages[i].index)
  {
    seq(|pages|, i requires 0 <= i < |pages| =>
      WriteStep(pages[i].file, pages[i].index, if pages[i].rotation != 0 then Some(pages[i].rotation) else None,
                Turned(pages[..i + 1], pages[i].file, pages[i].index)))
  }

  /** The writer steps as intended: each added page is turned by its own rotation only. */
  function StepsIntended(pages: seq<PageItem>): (r: seq<WriteStep>)
    ensures |r| == |pages|
    ensures forall i :: 0 <= i < |pages| ==> r[i].turn == pages[i].rotation
    ensures forall i :: 0 <= i < |pages| ==>
      r[i].file == Steps(pages)[i].file && r[i].index == Steps(pages)[i].index && r[i].rotate == Steps(pages)[i].rotate
  {
    var steps := Steps(pages);
    seq(|pages|, i requires 0 <= i < |pages| => steps[i].(turn := pages[i].rotation))
  }

  /** Pages that do not match contribute nothing to a page's turn. */
  lemma {:induction false} TurnedSkip(pages: seq<PageItem>, lo: nat, hi: nat, file: string, index: nat)
    requires lo <= hi <= |pages|
    requires forall k :: lo <= k < hi ==> !(pages[k].file == file && pages[k].index == index)
    ensures Turned(pages[..hi], file, index) == Turned(pages[..lo], file, index)
    decreases hi
  {
    if hi > lo {
      assert pages[..hi][..hi - 1] == pages[..hi - 1];
      TurnedSkip(pages, lo, hi - 1, file, index);
    }
  }

  /** The first selected copy of a page is written turned by exactly its own rotation. */
  lemma TurnAlone(pages: seq<PageItem>, i: nat)
    requires i < |pages|
    requires forall k :: 0 <= k < i ==> !SamePage(pages[k], pages[i])
    ensures Steps(pages)[i].turn == pages[i].rotation
  {
    assert pages[..i + 1][..i] == pages[..i];
    TurnedSkip(pages, 0, i, pages[i].file, pages[i].index);
    assert pages[..0] == [];
  }

  /** One unfolding of `Turned` on the prefix ending at page `n`. */
  lemma TurnedLast(pages: seq<PageItem>, n: nat, file: string, index: nat)
    requires n < |pages|
    ensures Turned(pages[..n + 1], file, index)
      == Turned(pages[..n], file, index) + (if pages[n].file == file && pages[n].index == index then pages[n].rotation else 0)
  {
    assert pages[..n + 1][..n] == pages[..n];
  }

  /** A later copy of a page is written with the previous copy's turn plus its own rotation. */
  lemma TurnAccumulates(pages: seq<PageItem>, j: nat, i: nat)
    requires j < i < |pages| && SamePage(pages[j], pages[i])
    requires forall k :: j < k < i ==> !SamePage(pages[k], pages[i])
    ensures Steps(pages)[i].turn == Steps(pages)[j].turn + pages[i].rotation
  {
    var file, index := pages[i].file, pages[i].index;
    var steps := Steps(pages);
    assert steps[i].turn == Turned(pages[..i + 1], file, index);
    assert steps[j].turn == Turned(pages[..j + 1], file, index);
    TurnedLast(pages, i, file, index);
    TurnedSkip(pages, j + 1, i, file, index);
  }

  /** When no page is selected twice, the steps as written are the steps as intended. */
  lemma StepsIntendedWhenDistinct(pages: seq<PageItem>)
    ensures DistinctPages(pages) ==> Steps(pages) == StepsIntended(pages)
  {
    if DistinctPages(pages) {
      forall i | 0 <= i < |pages|
        ensures Steps(pages)[i].turn == pages[i].rotation
      {
        TurnAlone(pages, i);
      }
    }
  }

  /** A page selected twice: its second copy carries the first copy's rotation as well, where only its own is intended. */
  lemma RepeatedPageAccumulates(p: PageItem, q: PageItem)
    requires SamePage(p, q)
    ensures Steps([p, q])[1].turn == p.rotation + q.rotation
    ensures StepsIntended([p, q])[1].turn == q.rotation
  {
    TurnAlone([p, q], 0);
    TurnAccumulates([p, q], 0, 1);
  }

  datatype MergeOutcome =
    | NothingSelected
    | Cancelled
    | Failed
    | Written(path: string, steps: seq<WriteStep>)

  /** Every selected page exists in its file (`PdfReader` opens it and `reader.pages[i]` does not raise). */
  predicate Readable(pages: seq<PageItem>, pageCount: string -> Option<nat>) {
    forall i :: 0 <= i < |pages| ==> pageCount(pages[i].file).Some? && pages[i].index < pageCount(pages[i].file).value
  }

  /** The plan's steps follow the selection: same pages, same order, a rotation exactly where one is set. */
  predicate FollowsSelection(steps: seq<WriteStep>, selected: seq<PageItem>) {
    |steps| == |selected|
    && forall i :: 0 <= i < |steps| ==>
      steps[i].file == selected[i].file && steps[i].index == selected[i].index
      && (steps[i].rotate.Some? <==> selected[i].rotation != 0)
  }

  /**
   * `perform_merge`: `savePath` is the dialog's answer (empty when
   * cancelled), `pageCount` the page count of each file (`None` when it
   * cannot be read) and `canWrite` whether the output opens. Returns the
   * outcome and the grid afterwards, which is emptied only after a write.
   */
  function PerformMerge(pages: seq<PageItem>, savePath: string,
                        pageCount: string -> Option<nat>, canWrite: string -> bool): (r: (MergeOutcome, seq<PageItem>))
    ensures Selected(pages) == [] <==> r.0 == NothingSelected
    ensures r.0 == Cancelled <==> Selected(pages) != [] && savePath == ""
    ensures r.0.Written? <==>
      Selected(pages) != [] && savePath != "" && Readable(Selected(pages), pageCount) && canWrite(savePath)
    ensures r.0.Written? ==> r.0.path == savePath && FollowsSelection(r.0.steps, Selected(pages))
    ensures r.0.Written? ==> r.0.steps == Steps(Selected(pages))
    ensures r.0.Written? && DistinctPages(Selected(pages)) ==> r.0.steps == StepsIntended(Selected(pages))
    ensures r.1 == (if r.0.Written? then [] else pages)
  {
    var selected := Selected(pages);
    if selected == [] then (NothingSelected, pages)
    else if savePath == "" then (Cancelled, pages)
    else if !Readable(selected, pageCount) || !canWrite(savePath) then (Failed, pages)
    else
      StepsIntendedWhenDistinct(selected);
      (Written(savePath, Steps(selected)), [])
  }

  /** `clear_all_pages`: `takeAt(0)` while the layout has items; every item is taken, in order. */
  method ClearAllPages<T>(layout: seq<T>) returns (taken: seq<T>, rest: seq<T>)
    ensures rest == [] && taken == layout
  {
    taken := [];
    rest := layout;
    while |rest| > 0
      invariant taken + rest == layout
    {
      var (item, remaining) := FlowLayout.TakeAt(rest, 0);
      taken := taken + [item.value];
      rest := remaining;
    }
  }
}

=== FILE: optional.dfy ===
/** Python's `None`-or-value, and the two integer helpers every module uses. */
module Optional {

  /** A value that may be absent, as Python's `None`. */
  datatype Option<+T> = None | Some(value: T)

  function Max(a: int, b: int): int {
    if a >= b then a else b
  }

  function Min(a: int, b: int): int {
    if a <= b then a else b
  }
}

=== FILE: pdf_splitter.dfy ===
/**
 * `split_pdf_by_ranges` (pdf_utils/splitter.py): every 1-based inclusive
 * page range becomes one new document holding those pages of the source
 * that exist. Documents are abstract sequences of pages `P`.
 */
module PdfSplitter {
  import opened Optional

  /** One requested output: first and last page (1-based, inclusive) and the file name to write. */
  datatype PageRange = PageRange(start: int, end: int, name: string)

  /** One written document: its file name and its pages, in order. */
  datatype Output<P> = Output(name: string, pages: seq<P>)

  /** The outputs written before the run ended, and the function's return value. */
  datatype SplitRun<P> = SplitRun(outputs: seq<Output<P>>, success: bool)

  /** The indices visited by `for i in range(from, end): if i < n`, in visiting order. */
  function IndicesFrom(from: nat, end: int, n: nat): (r: seq<nat>)
    ensures |r| == Max(0, Min(end, n) - from)
    ensures forall k :: 0 <= k < |r| ==> r[k] == from + k && r[k] < n
    decreases Max(0, end - from)
  {
    if from >= end then []
    else (if from < n then [from] else []) + IndicesFrom(from + 1, end, n)
  }

  /** The 0-based page indices copied for one range of a document with `n` pages. */
  function PageIndices(r: PageRange, n: nat): (idx: seq<nat>)
    requires r.start >= 1
    ensures |idx| == Max(0, Min(r.end, n) - r.start + 1)
    ensures forall k :: 0 <= k < |idx| ==> idx[k] == r.start - 1 + k && idx[k] < n
  {
    IndicesFrom(r.start - 1, r.end, n)
  }

  /** The pages copied for one range. */
  function RangePages<P>(doc: seq<P>, r: PageRange): (pages: seq<P>)
    requires r.start >= 1
    ensures |pages| == Max(0, Min(r.end, |doc|) - r.start + 1)
    ensures forall k :: 0 <= k < |pages| ==> r.start - 1 + k < |doc| && pages[k] == doc[r.start - 1 + k]
  {
    var idx := PageIndices(r, |doc|);
    seq(|idx|, k requires 0 <= k < |idx| => doc[idx[k]])
  }

  /** The pages of a range are the slice from `start - 1` up to the end of the range or of the document. */
  lemma RangePagesIsSlice<P>(doc: seq<P>, r: PageRange)
    requires r.start >= 1
    ensures var last := Min(r.end, |doc|);
      RangePages(doc, r) == if r.start - 1 <= last then doc[r.start - 1..last] else []
  {
  }

  /** A range whose start lies after its end yields an output with no pages. */
  lemma EmptyWhenStartAfterEnd<P>(doc: seq<P>, r: PageRange)
    requires r.start >= 1 && r.start > r.end
    ensures RangePages(doc, r) == []
  {
  }

  predicate ValidStarts(ranges: seq<PageRange>) {
    forall i :: 0 <= i < |ranges| ==> ranges[i].start >= 1
  }

  /**
   * The `for start, end, name in ranges` loop once the reader is open. A file
   * whose `open` fails (`canWrite(name)` is false) raises, which ends the run
   * with the outputs written so far and a False result.
   */
  function WriteRanges<P>(doc: seq<P>, ranges: seq<PageRange>, canWrite: string -> bool): (run: SplitRun<P>)
    requires ValidStarts(ranges)
    ensures |run.outputs| <= |ranges|
    ensures forall k :: 0 <= k < |run.outputs| ==>
      run.outputs[k] == Output(ranges[k].name, RangePages(doc, ranges[k])) && canWrite(ranges[k].name)
    ensures run.success <==> forall i :: 0 <= i < |ranges| ==> canWrite(ranges[i].name)
    ensures run.success ==> |run.outputs| == |ranges|
    ensures !run.success ==> |run.outputs| < |ranges| && !canWrite(ranges[|run.outputs|].name)
  {
    if |ranges| == 0 then SplitRun([], true)
    else if !canWrite(ranges[0].name) then SplitRun([], false)
    else
      var rest := WriteRanges(doc, ranges[1..], canWrite);
      SplitRun([Output(ranges[0].name, RangePages(doc, ranges[0]))] + rest.outputs, rest.success)
  }

  /**
   * `split_pdf_by_ranges(input_pdf, ranges, output_dir)`. `doc` is the
   * opened source, or `None` when `PdfReader` raises.
   */
  function SplitPdfByRanges<P>(doc: Option<seq<P>>, ranges: seq<PageRange>, canWrite: string -> bool): (run: SplitRun<P>)
    requires ValidStarts(ranges)
    ensures doc.None? ==> run == SplitRun([], false)
    ensures run.success <==> doc.Some? && forall i :: 0 <= i < |ranges| ==> canWrite(ranges[i].name)
    ensures run.success ==> |run.outputs| == |ranges| && forall k :: 0 <= k < |ranges| ==>
      run.outputs[k].name == ranges[k].name && run.outputs[k].pages == RangePages(doc.value, ranges[k])
  {
    match doc
    case None => SplitRun([], false)
    case Some(pages) => WriteRanges(pages, ranges, canWrite)
  }
}

=== FILE: preview.dfy ===
/**
 * `PagePreviewWindow` (gui/pdf_to_office_gui.py): a grid of page
 * thumbnails, each with a keep checkbox and a `SelectablePreviewLabel`, and
 * at most one region held for one page. Page images, pixmaps and widgets
 * are abstracted to the state the window's handlers read and write.
 */
module Preview {
  import opened Optional
  import Selection

  /** The region the window holds and the page it was drawn on. */
  datatype Held = Held(region: Selection.Region, page: nat)

  /**
   * The window: the checkbox of each page, whether each page's label shows
   * a drawn rectangle, the held region (`selection_rect` with
   * `selected_page_idx`, where -1 is `None` here), the zoom level and
   * whether the region button is on.
   */
  datatype Window = Window(checked: seq<bool>, drawn: seq<bool>, held: Option<Held>, zoom: real, regionMode: bool)

  predicate Valid(w: Window) {
    |w.drawn| == |w.checked| && (w.held.Some? ==> w.held.value.page < |w.checked|) && w.zoom > 0.0
  }

  /** Only the page a region was drawn on can show a rectangle. */
  predicate OneRegion(w: Window) {
    forall j :: 0 <= j < |w.drawn| && w.drawn[j] ==> w.held.Some? && j == w.held.value.page
  }

  /** The checkbox states a render gives `n` pages: the saved state where there is one, ticked otherwise. */
  function Restore(saved: seq<bool>, n: nat): (checked: seq<bool>)
    ensures |checked| == n
    ensures forall i :: 0 <= i < n ==> checked[i] == (i >= |saved| || saved[i])
  {
    seq(n, i requires 0 <= i < n => if i < |saved| then saved[i] else true)
  }

  /** `max(1, int(4 / zoom_level))`. */
  function Columns(zoom: real): (c: int)
    requires zoom > 0.0
    ensures c >= 1
  {
    Max(1, Selection.Trunc(4.0 / zoom))
  }

  /** Over the zoom range the window allows, between one and eight columns. */
  lemma ColumnsInZoomRange(zoom: real)
    requires 0.5 <= zoom <= 3.0
    ensures 1 <= Columns(zoom) <= 8
  {
    assert 4.0 / zoom <= 8.0;
  }

  /** The grid cell `(idx // columns, idx % columns)` of a page. */
  function Cell(idx: nat, columns: int): (rc: (int, int))
    requires columns >= 1
    ensures 0 <= rc.1 < columns && rc.0 >= 0
    ensures rc.0 * columns + rc.1 == idx
  {
    (idx / columns, idx % columns)
  }

  /** No two pages share a cell. */
  lemma CellsDistinct(i: nat, j: nat, columns: int)
    requires columns >= 1 && i != j
    ensures Cell(i, columns) != Cell(j, columns)
  {
  }

  /** The `None` a label emits for page `p`: the held region is dropped only when `p` holds it. */
  function OnNone(w: Window, p: nat): (w': Window)
    ensures w'.checked == w.checked && w'.drawn == w.drawn && w'.zoom == w.zoom && w'.regionMode == w.regionMode
    ensures w.held.Some? && w.held.value.page == p ==> w'.held.None?
    ensures !(w.held.Some? && w.held.value.page == p) ==> w'.held == w.held
  {
    if w.held.Some? && w.held.value.page == p then w.(held := None) else w
  }

  /**
   * `label.clear_selection()` for every label from `i` on except page `p`:
   * each label forgets its rectangle and its `None` signal is handled at
   * once, before the caller continues.
   */
  function ClearOthers(w: Window, p: nat, i: nat): (w': Window)
    requires |w.drawn| == |w.checked|
    ensures |w'.drawn| == |w.drawn| && w'.checked == w.checked && w'.zoom == w.zoom && w'.regionMode == w.regionMode
    ensures forall j :: 0 <= j < |w.drawn| ==> w'.drawn[j] == (if i <= j && j != p then false else w.drawn[j])
    ensures w.held.Some? && i <= w.held.value.page < |w.drawn| && w.held.value.page != p ==> w'.held.None?
    ensures !(w.held.Some? && i <= w.held.value.page < |w.drawn| && w.held.value.page != p) ==> w'.held == w.held
    decreases |w.drawn| - i
  {
    if i >= |w.drawn| then w
    else if i == p then ClearOthers(w, p, i + 1)
    else ClearOthers(OnNone(w.(drawn := w.drawn[i := false]), i), p, i + 1)
  }

  /**
   * `on_selection_changed(rect, page_idx)`: a region clears every other
   * page's rectangle, is held for its page and ticks that page. A `None`
   * only ever comes from the label's own `clear_selection`, which has
   * already removed its rectangle; the window then drops the held region
   * only when it belongs to the same page.
   */
  function OnSelectionChanged(w: Window, rect: Option<Selection.Region>, p: nat): (w': Window)
    requires Valid(w) && p < |w.checked|
    ensures Valid(w')
    ensures rect.Some? ==> w'.held == Some(Held(rect.value, p)) && OneRegion(w')
    ensures rect.Some? ==> |w'.checked| == |w.checked| && w'.checked[p]
    ensures rect.Some? ==> forall j :: 0 <= j < |w.checked| && j != p ==> w'.checked[j] == w.checked[j]
    ensures rect.None? ==> w' == OnNone(w, p).(drawn := w.drawn[p := false])
    ensures OneRegion(w) ==> OneRegion(w')
  {
    if rect.Some? then
      var cleared := ClearOthers(w, p, 0);
      cleared.(held := Some(Held(rect.value, p)), checked := cleared.checked[p := true], drawn := cleared.drawn[p := true])
    else OnNone(w, p).(drawn := w.drawn[p := false])
  }

  /** A region event followed by its own page's `None` (a small drag there) leaves no region held and no rectangle shown. */
  lemma RegionThenNone(w: Window, r: Selection.Region, p: nat)
    requires Valid(w) && p < |w.checked|
    ensures var w' := OnSelectionChanged(OnSelectionChanged(w, Some(r), p), None, p);
      w'.held.None? && forall j :: 0 <= j < |w'.drawn| ==> !w'.drawn[j]
  {
  }

  /** A `None` from another page leaves a held region in place. */
  lemma NoneFromOtherPageKeepsRegion(w: Window, r: Selection.Region, p: nat, q: nat)
    requires Valid(w) && p < |w.checked| && q < |w.checked| && p != q
    ensures OnSelectionChanged(OnSelectionChanged(w, Some(r), p), None, q).held == Some(Held(r, p))
  {
  }

  /**
   * `render_pages` for a document of `n` pages: checkboxes restored from
   * `saved`, fresh labels without rectangles. Each new label is put into
   * the current region mode; with the mode off it clears itself and its
   * `None` reaches the window, which drops a region held on that page.
   */
  function Render(w: Window, n: nat, saved: seq<bool>): (w': Window)
    requires w.held.Some? ==> w.held.value.page < n
    requires w.zoom > 0.0
    ensures Valid(w') && OneRegion(w')
    ensures w'.checked == Restore(saved, n) && w'.zoom == w.zoom && w'.regionMode == w.regionMode
    ensures w'.held == (if w.regionMode then w.held else None)
  {
    var blank := seq(n, i requires 0 <= i < n => false);
    w.(checked := Restore(saved, n), drawn := blank, held := if w.regionMode then w.held else None)
  }

  /** `max(0.5, min(3.0, zoom))`. */
  function ClampZoom(z: real): (c: real)
    ensures 0.5 <= c <= 3.0
    ensures 0.5 <= z <= 3.0 ==> c == z
  {
    if z < 0.5 then 0.5 else if z > 3.0 then 3.0 else z
  }

  /** `adjust_zoom(factor)`: save the checkboxes, scale and clamp the zoom, render again. */
  function AdjustZoom(w: Window, factor: real): (w': Window)
    requires Valid(w)
    ensures Valid(w')
    ensures w'.checked == w.checked
    ensures 0.5 <= w'.zoom <= 3.0 && 1 <= Columns(w'.zoom) <= 8
    ensures w'.held == (if w.regionMode then w.held else None)
  {
    ColumnsInZoomRange(ClampZoom(w.zoom * factor));
    Render(w.(zoom := ClampZoom(w.zoom * factor)), |w.checked|, w.checked)
  }

  /** `toggle_selection_mode`: switching every label off clears them, and their `None` signals drop the held region. */
  function ToggleSelectionMode(w: Window, enabled: bool): (w': Window)
    requires Valid(w)
    ensures Valid(w') && w'.regionMode == enabled && w'.checked == w.checked
    ensures enabled ==> w' == w.(regionMode := true)
    ensures !enabled ==> w'.held.None? && forall j :: 0 <= j < |w'.drawn| ==> !w'.drawn[j]
  {
    if enabled then w.(regionMode := true)
    else
      var off := w.(regionMode := false);
      ClearOthers(off, |w.checked|, 0)
  }

  /** `clear_selection`: no region, no rectangles, region mode off; the checkboxes stay. */
  function ClearSelection(w: Window): (w': Window)
    requires Valid(w)
    ensures Valid(w') && OneRegion(w')
    ensures w'.held.None? && !w'.regionMode && w'.checked == w.checked && w'.zoom == w.zoom
  {
    var dropped := w.(held := None);
    ToggleSelectionMode(ClearOthers(dropped, |w.checked|, 0), false)
  }

  /** The ticked page indices in ascending order. */
  function CheckedIndices(checked: seq<bool>): (r: seq<nat>)
    ensures forall k :: 0 <= k < |r| ==> r[k] < |checked| && checked[r[k]]
    ensures forall i :: 0 <= i < |checked| && checked[i] ==> i in r
    ensures forall k, l :: 0 <= k < l < |r| ==> r[k] < r[l]
  {
    if |checked| == 0 then []
    else
      var init := checked[..|checked| - 1];
      assert forall i :: 0 <= i < |init| ==> init[i] == checked[i];
      CheckedIndices(init) + (if checked[|checked| - 1] then [|checked| - 1] else [])
  }

  /** The number `update_selection_count` shows. */
  function CheckedCount(checked: seq<bool>): (c: nat)
    ensures c <= |checked|
    ensures c == 0 <==> forall i :: 0 <= i < |checked| ==> !checked[i]
    ensures c == |checked| <==> forall i :: 0 <= i < |checked| ==> checked[i]
  {
    if |checked| == 0 then 0
    else CheckedCount(checked[..|checked| - 1]) + (if checked[|checked| - 1] then 1 else 0)
  }

  /** The count shown is the number of pages a submit would send. */
  lemma {:induction false} CountMatchesIndices(checked: seq<bool>)
    ensures |CheckedIndices(checked)| == CheckedCount(checked)
  {
    if |checked| > 0 {
      CountMatchesIndices(checked[..|checked| - 1]);
    }
  }

  /** What `submit_selection` emits: the ticked pages and the held region with its page. */
  datatype Submission = Submission(pages: seq<nat>, held: Option<Held>)

  /** `submit_selection`: nothing is emitted when no page is ticked. */
  function Submit(w: Window): (s: Option<Submission>)
    ensures s.None? <==> forall i :: 0 <= i < |w.checked| ==> !w.checked[i]
    ensures s.Some? ==> s.value.pages == CheckedIndices(w.checked) && s.value.held == w.held
  {
    var pages := CheckedIndices(w.checked);
    if pages == [] then
      assert forall i :: 0 <= i < |w.checked| ==> !w.checked[i];
      None
    else
      assert w.checked[pages[0]];
      Some(Submission(pages, w.held))
  }

  /** Drawing a region on an unticked page makes that page part of the submission, with the region. */
  lemma RegionPageIsSubmitted(w: Window, r: Selection.Region, p: nat)
    requires Valid(w) && p < |w.checked|
    ensures var s := Submit(OnSelectionChanged(w, Some(r), p));
      s.Some? && p in s.value.pages && s.value.held == Some(Held(r, p))
  {
  }
}

=== FILE: selection.dfy ===
/**
 * `SelectablePreviewLabel` (gui/ui_components.py): a preview label on
 * which the user drags a rectangle. The label keeps the two drag corners,
 * turns them into a region of the unzoomed page and emits it, or `None`.
 */
module Selection {
  import opened Optional

  datatype Pt = Pt(x: int, y: int)

  datatype Size = Size(width: int, height: int)

  /** `(x, y, w, h)` in the coordinates of the unzoomed page. */
  datatype Region = Region(x: int, y: int, w: int, h: int)

  /**
   * The label's state: selection mode, the two drag corners (`None` until
   * pressed), the displayed pixmap's size (`None` when there is no pixmap)
   * and the zoom factor of the display.
   */
  datatype Selector = Selector(mode: bool, start: Option<Pt>, end: Option<Pt>, pixmap: Option<Size>, zoom: real)

  /** A signal emitted by an event, if any. */
  datatype Signal = NoSignal | Emitted(region: Option<Region>)

  /** Python's `int(r)`: truncation toward zero. */
  function Trunc(r: real): (t: int)
    ensures r >= 0.0 ==> 0 <= t && t as real <= r < t as real + 1.0
    ensures r < 0.0 ==> t <= 0 && t as real - 1.0 < r <= t as real
  {
    if r >= 0.0 then r.Floor else -((-r).Floor)
  }

  /** Truncation toward zero never reverses the order of two reals. */
  lemma TruncMonotone(u: real, v: real)
    requires u <= v
    ensures Trunc(u) <= Trunc(v)
  {
    if u >= 0.0 {
      assert u.Floor <= v.Floor;
    } else if v < 0.0 {
      assert (-v).Floor <= (-u).Floor;
    }
  }

  /** Division by a positive zoom followed by truncation keeps the order of non-negative coordinates. */
  lemma ScaleMonotone(a: int, b: int, zoom: real)
    requires 0 <= a <= b && zoom > 0.0
    ensures 0 <= Trunc(a as real / zoom) <= Trunc(b as real / zoom)
  {
    assert a as real / zoom <= b as real / zoom by {
      assert (b - a) as real / zoom >= 0.0;
      assert b as real / zoom - a as real / zoom == (b - a) as real / zoom;
    }
  }

  /** `max(0, min(v, limit))`. */
  function Clamp(v: int, limit: int): (c: int)
    ensures 0 <= c
    ensures 0 <= limit ==> c <= limit
    ensures 0 <= v <= limit ==> c == v
  {
    Max(0, Min(v, limit))
  }

  /** The corner-normalised, clamped and scaled rectangle spanned by two points. */
  function RegionFrom(a: Pt, b: Pt, pixmap: Option<Size>, zoom: real): (r: Option<Region>)
    ensures r.None? <==> Span(a.x, b.x, pixmap, true) == 0 || Span(a.y, b.y, pixmap, false) == 0
    ensures r.Some? && zoom > 0.0 && pixmap.Some? ==> r.value.x >= 0 && r.value.y >= 0 && r.value.w >= 0 && r.value.h >= 0
    ensures r.Some? && zoom > 0.0 ==> r.value.w >= 0 && r.value.h >= 0
    ensures r.Some? && zoom <= 0.0 ==> r.value.w == Span(a.x, b.x, pixmap, true) && r.value.h == Span(a.y, b.y, pixmap, false)
  {
    var lo := Low(a, b, pixmap);
    var hi := High(a, b, pixmap);
    if lo.x == hi.x || lo.y == hi.y then None
    else if zoom > 0.0 then
      var x1 := Trunc(lo.x as real / zoom);
      var y1 := Trunc(lo.y as real / zoom);
      var x2 := Trunc(hi.x as real / zoom);
      var y2 := Trunc(hi.y as real / zoom);
      ScaledCornersOrdered(a, b, pixmap, zoom);
      Some(Region(x1, y1, x2 - x1, y2 - y1))
    else Some(Region(lo.x, lo.y, hi.x - lo.x, hi.y - lo.y))
  }

  /** The scaled corners stay in order; with a pixmap they are also non-negative. */
  lemma ScaledCornersOrdered(a: Pt, b: Pt, pixmap: Option<Size>, zoom: real)
    requires zoom > 0.0
    ensures var lo := Low(a, b, pixmap);
      var hi := High(a, b, pixmap);
      Trunc(lo.x as real / zoom) <= Trunc(hi.x as real / zoom)
      && Trunc(lo.y as real / zoom) <= Trunc(hi.y as real / zoom)
    ensures var lo := Low(a, b, pixmap);
      var hi := High(a, b, pixmap);
      pixmap.Some? ==>
        0 <= Trunc(lo.x as real / zoom) <= Trunc(hi.x as real / zoom)
        && 0 <= Trunc(lo.y as real / zoom) <= Trunc(hi.y as real / zoom)
  {
    var lo := Low(a, b, pixmap);
    var hi := High(a, b, pixmap);
    BoundMonotone(Min(a.x, b.x), Max(a.x, b.x), pixmap, true);
    BoundMonotone(Min(a.y, b.y), Max(a.y, b.y), pixmap, false);
    DivideMonotone(lo.x, hi.x, zoom);
    DivideMonotone(lo.y, hi.y, zoom);
    if pixmap.Some? {
      ScaleMonotone(lo.x, hi.x, zoom);
      ScaleMonotone(lo.y, hi.y, zoom);
    }
  }

  /** Division by a positive zoom followed by truncation keeps the order of any two coordinates. */
  lemma DivideMonotone(a: int, b: int, zoom: real)
    requires a <= b && zoom > 0.0
    ensures Trunc(a as real / zoom) <= Trunc(b as real / zoom)
  {
    assert a as real / zoom <= b as real / zoom by {
      assert (b - a) as real / zoom >= 0.0;
      assert b as real / zoom - a as real / zoom == (b - a) as real / zoom;
    }
    TruncMonotone(a as real / zoom, b as real / zoom);
  }

  /** One coordinate of the normalised corners, clamped to the pixmap when there is one. */
  function Bound(v: int, pixmap: Option<Size>, horizontal: bool): int {
    match pixmap
    case None => v
    case Some(s) => Clamp(v, if horizontal then s.width else s.height)
  }

  /** The top-left corner: the smaller coordinates, then clamped. */
  function Low(a: Pt, b: Pt, pixmap: Option<Size>): Pt {
    Pt(Bound(Min(a.x, b.x), pixmap, true), Bound(Min(a.y, b.y), pixmap, false))
  }

  /** The bottom-right corner: the larger coordinates, then clamped. */
  function High(a: Pt, b: Pt, pixmap: Option<Size>): Pt {
    Pt(Bound(Max(a.x, b.x), pixmap, true), Bound(Max(a.y, b.y), pixmap, false))
  }

  /** The extent along one axis after normalising and clamping, before scaling. */
  function Span(u: int, v: int, pixmap: Option<Size>, horizontal: bool): (d: int)
    ensures d >= 0
    ensures pixmap.None? ==> d == Max(u, v) - Min(u, v)
  {
    Bound(Max(u, v), pixmap, horizontal) - Bound(Min(u, v), pixmap, horizontal)
  }

  /** Clamping keeps the normalised corners in order. */
  lemma BoundMonotone(u: int, v: int, pixmap: Option<Size>, horizontal: bool)
    requires u <= v
    ensures Bound(u, pixmap, horizontal) <= Bound(v, pixmap, horizontal)
  {
  }

  /** The region does not depend on the drag direction: swapping corners or using the other diagonal gives the same one. */
  lemma DirectionIndependent(a: Pt, b: Pt, pixmap: Option<Size>, zoom: real)
    ensures RegionFrom(a, b, pixmap, zoom) == RegionFrom(b, a, pixmap, zoom)
    ensures RegionFrom(a, b, pixmap, zoom) == RegionFrom(Pt(a.x, b.y), Pt(b.x, a.y), pixmap, zoom)
  {
    SameCorners(a, b, b, a, pixmap, zoom);
    SameCorners(a, b, Pt(a.x, b.y), Pt(b.x, a.y), pixmap, zoom);
  }

  /** The region depends on the two points only through the normalised corners. */
  lemma SameCorners(a: Pt, b: Pt, c: Pt, d: Pt, pixmap: Option<Size>, zoom: real)
    requires Min(a.x, b.x) == Min(c.x, d.x) && Max(a.x, b.x) == Max(c.x, d.x)
    requires Min(a.y, b.y) == Min(c.y, d.y) && Max(a.y, b.y) == Max(c.y, d.y)
    ensures RegionFrom(a, b, pixmap, zoom) == RegionFrom(c, d, pixmap, zoom)
  {
    assert Low(a, b, pixmap) == Low(c, d, pixmap);
    assert High(a, b, pixmap) == High(c, d, pixmap);
  }

  /** With a pixmap and no scaling, the region lies inside the pixmap and spans exactly the clamped drag. */
  lemma RegionInsidePixmap(a: Pt, b: Pt, s: Size)
    requires s.width >= 0 && s.height >= 0
    requires RegionFrom(a, b, Some(s), 1.0).Some?
    ensures var r := RegionFrom(a, b, Some(s), 1.0).value;
      0 <= r.x && r.x + r.w <= s.width && 0 <= r.y && r.y + r.h <= s.height
      && r.w > 0 && r.h > 0
  {
    var lo := Low(a, b, Some(s));
    var hi := High(a, b, Some(s));
    BoundMonotone(Min(a.x, b.x), Max(a.x, b.x), Some(s), true);
    BoundMonotone(Min(a.y, b.y), Max(a.y, b.y), Some(s), false);
    assert Trunc(lo.x as real / 1.0) == lo.x;
    assert Trunc(lo.y as real / 1.0) == lo.y;
    assert Trunc(hi.x as real / 1.0) == hi.x;
    assert Trunc(hi.y as real / 1.0) == hi.y;
  }

  /**
   * `get_selection_rect` as intended: a region needs both corners to have
   * been set.
   */
  function SelectionRect(s: Selector): (r: Option<Region>)
    ensures s.start.None? || s.end.None? ==> r.None?
    ensures s.start.Some? && s.end.Some? ==> r == RegionFrom(s.start.value, s.end.value, s.pixmap, s.zoom)
  {
    if s.start.None? || s.end.None? then None
    else RegionFrom(s.start.value, s.end.value, s.pixmap, s.zoom)
  }

  /** Python truth of a PyQt5 `QPoint` held in an attribute: `None` and the null point `(0, 0)` are false. */
  predicate Truthy(p: Option<Pt>)
    ensures p.None? ==> !Truthy(p)
    ensures p == Some(Pt(0, 0)) ==> !Truthy(p)
    ensures p.Some? && p.value != Pt(0, 0) ==> Truthy(p)
  {
    p.Some? && !(p.value.x == 0 && p.value.y == 0)
  }

  /** `get_selection_rect` as written: `not self.selection_start` also rejects a corner at `(0, 0)`. */
  function SelectionRectAsWritten(s: Selector): (r: Option<Region>)
    ensures !Truthy(s.start) || !Truthy(s.end) ==> r.None?
    ensures Truthy(s.start) && Truthy(s.end) ==> r == SelectionRect(s)
  {
    if !Truthy(s.start) || !Truthy(s.end) then None
    else RegionFrom(s.start.value, s.end.value, s.pixmap, s.zoom)
  }

  /** A drag from the top-left pixel of the page loses its selection in the code as written. */
  lemma OriginDragLost()
    ensures var s := Selector(true, Some(Pt(0, 0)), Some(Pt(100, 80)), Some(Size(200, 200)), 1.0);
      SelectionRectAsWritten(s) == None && SelectionRect(s) == Some(Region(0, 0, 100, 80))
  {
    var s := Selector(true, Some(Pt(0, 0)), Some(Pt(100, 80)), Some(Size(200, 200)), 1.0);
    assert Trunc(0 as real / 1.0) == 0;
    assert Trunc(100 as real / 1.0) == 100;
    assert Trunc(80 as real / 1.0) == 80;
  }

  /** The region is large enough to emit: wider and taller than 5 units. */
  predicate LargeEnough(r: Option<Region>)
    ensures LargeEnough(r) ==> r.Some? && r.value.w >= 6 && r.value.h >= 6
    ensures r.Some? && r.value.w >= 6 && r.value.h >= 6 ==> LargeEnough(r)
  {
    r.Some? && r.value.w > 5 && r.value.h > 5
  }

  /** `clear_selection`: forget both corners and emit `None`. */
  function Clear(s: Selector): (res: (Selector, Signal))
    ensures res.0.start.None? && res.0.end.None? && SelectionRect(res.0).None?
    ensures res.0.mode == s.mode && res.0.pixmap == s.pixmap && res.0.zoom == s.zoom
    ensures res.1 == Emitted(None)
  {
    (s.(start := None, end := None), Emitted(None))
  }

  /** `set_selection_mode(enabled)`: switching off also clears the selection. */
  function SetMode(s: Selector, enabled: bool): (res: (Selector, Signal))
    ensures res.0.mode == enabled
    ensures enabled ==> res == (s.(mode := true), NoSignal)
    ensures !enabled ==> SelectionRect(res.0).None? && res.1 == Emitted(None)
  {
    if enabled then (s.(mode := true), NoSignal) else Clear(s.(mode := false))
  }

  /** `mousePressEvent`: in selection mode a left press puts both corners at the mouse position. */
  function Press(s: Selector, at: Pt, left: bool): (t: Selector)
    ensures s.mode && left ==> t.start == Some(at) && t.end == Some(at) && SelectionRect(t).None?
    ensures !(s.mode && left) ==> t == s
  {
    if s.mode && left then s.(start := Some(at), end := Some(at)) else s
  }

  /**
   * `mouseMoveEvent` as written: while a drag is in progress the second
   * corner follows the mouse; a drag begun at the null point `(0, 0)` does
   * not count as in progress.
   */
  function Move(s: Selector, at: Pt, leftHeld: bool): (t: Selector)
    ensures s.mode && Truthy(s.start) && leftHeld ==> t == s.(end := Some(at))
    ensures !(s.mode && Truthy(s.start) && leftHeld) ==> t == s
  {
    if s.mode && Truthy(s.start) && leftHeld then s.(end := Some(at)) else s
  }

  /**
   * `mouseReleaseEvent` as written: ignored unless a truthy first corner is
   * held; otherwise emits the region when it is larger than 5 by 5, and else
   * clears the selection and emits `None`. A release at `(0, 0)` always clears.
   */
  function Release(s: Selector, at: Pt, left: bool): (res: (Selector, Signal))
    ensures !(s.mode && left && Truthy(s.start)) ==> res == (s, NoSignal)
    ensures s.mode && left && Truthy(s.start) ==>
      var r := if Truthy(Some(at)) then RegionFrom(s.start.value, at, s.pixmap, s.zoom) else None;
      (LargeEnough(r) ==> res == (s.(end := Some(at)), Emitted(r)))
      && (!LargeEnough(r) ==> res == (s.(start := None, end := None), Emitted(None)))
  {
    if s.mode && left && Truthy(s.start) then
      var t := s.(end := Some(at));
      var r := SelectionRectAsWritten(t);
      if LargeEnough(r) then (t, Emitted(r)) else Clear(t)
    else (s, NoSignal)
  }

  /** `mouseMoveEvent` as intended: any held first corner starts a drag. */
  function MoveIntended(s: Selector, at: Pt, leftHeld: bool): (t: Selector)
    ensures s.mode && s.start.Some? && leftHeld ==> t == s.(end := Some(at))
    ensures !(s.mode && s.start.Some? && leftHeld) ==> t == s
  {
    if s.mode && s.start.Some? && leftHeld then s.(end := Some(at)) else s
  }

  /** `mouseReleaseEvent` as intended: any held first corner finishes a drag, measured by `SelectionRect`. */
  function ReleaseIntended(s: Selector, at: Pt, left: bool): (res: (Selector, Signal))
    ensures !(s.mode && left && s.start.Some?) ==> res == (s, NoSignal)
    ensures s.mode && left && s.start.Some? ==>
      var r := RegionFrom(s.start.value, at, s.pixmap, s.zoom);
      (LargeEnough(r) ==> res == (s.(end := Some(at)), Emitted(r)))
      && (!LargeEnough(r) ==> res.1 == Emitted(None) && SelectionRect(res.0).None?)
  {
    if s.mode && left && s.start.Some? then
      var t := s.(end := Some(at));
      var r := SelectionRect(t);
      if LargeEnough(r) then (t, Emitted(r)) else Clear(t)
    else (s, NoSignal)
  }

  /** Moves between press and release do not change what the release does. */
  lemma MovesDoNotMatter(s: Selector, a: Pt, b: Pt, c: Pt)
    requires s.mode
    ensures Release(Move(Press(s, a, true), b, true), c, true) == Release(Press(s, a, true), c, true)
    ensures ReleaseIntended(MoveIntended(Press(s, a, true), b, true), c, true)
      == ReleaseIntended(Press(s, a, true), c, true)
  {
  }

  /**
   * A complete drag from `a` to `c` as written: nothing happens when it
   * starts at `(0, 0)`; otherwise it emits the region spanned when that is
   * large enough and `c` is not `(0, 0)`, and else `None`.
   */
  lemma DragEmits(s: Selector, a: Pt, c: Pt)
    requires s.mode
    ensures var r := RegionFrom(a, c, s.pixmap, s.zoom);
      Release(Press(s, a, true), c, true).1
        == if !Truthy(Some(a)) then NoSignal
           else Emitted(if Truthy(Some(c)) && LargeEnough(r) then r else None)
  {
  }

  /** A complete drag from `a` to `c` as intended emits exactly the region spanned when it is large enough, else `None`. */
  lemma DragEmitsIntended(s: Selector, a: Pt, c: Pt)
    requires s.mode
    ensures var r := RegionFrom(a, c, s.pixmap, s.zoom);
      ReleaseIntended(Press(s, a, true), c, true).1 == Emitted(if LargeEnough(r) then r else None)
  {
  }

  /** As written, a drag that starts at `(0, 0)` is ignored whatever the release point: no signal, no change. */
  lemma OriginPressIgnored(s: Selector, b: Pt, c: Pt)
    requires s.mode
    ensures var p := Press(s, Pt(0, 0), true);
      Move(p, b, true) == p && Release(p, c, true) == (p, NoSignal)
  {
  }

  /** Dividing a whole number by a zoom of 1.0 and truncating gives it back. */
  lemma TruncUnscaled(v: int)
    requires v >= 0
    ensures Trunc(v as real / 1.0) == v
  {
  }

  /** At zoom 1.0, a drag inside the pixmap with distinct coordinates yields exactly the rectangle it spans. */
  lemma UnscaledRegion(a: Pt, b: Pt, size: Size)
    requires 0 <= a.x <= size.width && 0 <= b.x <= size.width && a.x != b.x
    requires 0 <= a.y <= size.height && 0 <= b.y <= size.height && a.y != b.y
    ensures RegionFrom(a, b, Some(size), 1.0)
      == Some(Region(Min(a.x, b.x), Min(a.y, b.y), Max(a.x, b.x) - Min(a.x, b.x), Max(a.y, b.y) - Min(a.y, b.y)))
  {
    TruncUnscaled(Min(a.x, b.x));
    TruncUnscaled(Min(a.y, b.y));
    TruncUnscaled(Max(a.x, b.x));
    TruncUnscaled(Max(a.y, b.y));
  }

  /** The drag from `(0, 0)` to `(100, 80)` on a 200 by 200 page: ignored as written, emitted as intended. */
  lemma OriginDragIgnoredAsWritten(s: Selector)
    requires s.mode && s.pixmap == Some(Size(200, 200)) && s.zoom == 1.0
    ensures Release(Press(s, Pt(0, 0), true), Pt(100, 80), true).1 == NoSignal
    ensures ReleaseIntended(Press(s, Pt(0, 0), true), Pt(100, 80), true).1 == Emitted(Some(Region(0, 0, 100, 80)))
  {
    OriginPressIgnored(s, Pt(100, 80), Pt(100, 80));
    UnscaledRegion(Pt(0, 0), Pt(100, 80), Size(200, 200));
    DragEmitsIntended(s, Pt(0, 0), Pt(100, 80));
  }

  /** As written, releasing at `(0, 0)` after a press at `(50, 50)` clears the selection and emits `None`. */
  lemma OriginReleaseClearsAsWritten(s: Selector)
    requires s.mode
    ensures Release(Press(s, Pt(50, 50), true), Pt(0, 0), true).1 == Emitted(None)
  {
    DragEmits(s, Pt(50, 50), Pt(0, 0));
  }

  /** As intended, the drag from `(50, 50)` to `(0, 0)` on a 200 by 200 page emits the region it spans. */
  lemma OriginReleaseEmitsIntended(s: Selector)
    requires s.mode && s.pixmap == Some(Size(200, 200)) && s.zoom == 1.0
    ensures ReleaseIntended(Press(s, Pt(50, 50), true), Pt(0, 0), true).1 == Emitted(Some(Region(0, 0, 50, 50)))
  {
    UnscaledRegion(Pt(50, 50), Pt(0, 0), Size(200, 200));
    DragEmitsIntended(s, Pt(50, 50), Pt(0, 0));
  }

  /** As written, releasing at `(0, 0)` clears the selection even after a large drag; as intended it emits the region. */
  lemma OriginReleaseClears(s: Selector)
    requires s.mode && s.pixmap == Some(Size(200, 200)) && s.zoom == 1.0
    ensures Release(Press(s, Pt(50, 50), true), Pt(0, 0), true).1 == Emitted(None)
    ensures ReleaseIntended(Press(s, Pt(50, 50), true), Pt(0, 0), true).1 == Emitted(Some(Region(0, 0, 50, 50)))
  {
    OriginReleaseClearsAsWritten(s);
    OriginReleaseEmitsIntended(s);
  }
}

=== FILE: splitter_table.dfy ===
/**
 * The PDF splitter panel (gui/splitter_gui.py): reading the range table,
 * validating it, naming the outputs, the Tab key that adds the next row,
 * and resetting the table after a successful split.
 */
module SplitterTable {
  import opened Optional
  import opened PyText
  import opened PdfSplitter

  /** One table row: some cell widget is missing, or the start and end spin values and the name text. */
  datatype TableRow = MissingWidgets | Row(start: int, end: int, name: string)

  /** The checks of `split_pdf` that stop it before anything is split. */
  datatype SplitError = NoPdfSelected | DuplicateName(name: string) | StartAfterEnd(rowNumber: nat)

  /** The result of reading the table: an error, or the ranges handed to the splitter. */
  datatype Collected = Rejected(error: SplitError) | Accepted(ranges: seq<PageRange>)

  /** A row that takes part in the split, with its 1-based row number. */
  datatype KeptRow = KeptRow(rowNumber: nat, range: PageRange)

  /** Lowest and highest value of the start and end spin boxes. */
  const SpinMin: int := 1
  const SpinMax: int := 9999

  /** `QSpinBox.setValue` keeps the value inside the box's range. */
  function SpinValue(v: int, lo: int, hi: int): (r: int)
    requires lo <= hi
    ensures lo <= r <= hi
    ensures lo <= v <= hi ==> r == v
  {
    if v < lo then lo else if v > hi then hi else v
  }

  /** Every spin box in the table holds a value its range allows. */
  predicate SpinValuesInRange(rows: seq<TableRow>) {
    forall i :: 0 <= i < |rows| && rows[i].Row? ==>
      SpinMin <= rows[i].start <= SpinMax && SpinMin <= rows[i].end <= SpinMax
  }

  /** Rows passed over: a widget missing, a blank name or an end of 0. */
  predicate Skipped(row: TableRow) {
    row.MissingWidgets? || Strip(row.name) == [] || row.end == 0
  }

  /** The output name: append ".pdf" unless present in any case, drop the last extension, add `_<stamp>.pdf`. */
  function OutputName(name: string, stamp: string): (o: string)
    ensures EndsWith(o, "_" + stamp + ".pdf")
  {
    var withExt := if EndsWithIgnoreCase(name, ".pdf") then name else name + ".pdf";
    var base := DropExtension(withExt);
    EndsWithAppend(base, "_" + stamp + ".pdf");
    assert base + "_" + stamp + ".pdf" == base + ("_" + stamp + ".pdf");
    base + "_" + stamp + ".pdf"
  }

  /** The name without a trailing ".pdf" written in any letter case. */
  function BaseName(name: string): string {
    if EndsWithIgnoreCase(name, ".pdf") then name[..|name| - 4] else name
  }

  /** Only a '.' lower-cases to '.', and only 'p'/'P' to 'p' (and so on), so the suffix has no other dot. */
  lemma PdfSuffixShape(name: string)
    requires EndsWithIgnoreCase(name, ".pdf")
    ensures name == name[..|name| - 4] + "." + name[|name| - 3..]
    ensures '.' !in name[|name| - 3..]
  {
    var n := |name|;
    var low := Lower(name);
    assert low[n - 4..] == ".pdf";
    assert low[n - 4] == '.' && low[n - 3] == 'p' && low[n - 2] == 'd' && low[n - 1] == 'f';
    assert name[n - 4] == '.';
    assert forall i :: n - 3 <= i < n ==> name[i] != '.';
    assert name[n - 3..][0] == name[n - 3];
    assert name[n - 3..][1] == name[n - 2];
    assert name[n - 3..][2] == name[n - 1];
  }

  /** The two-step naming of `split_pdf` equals "base name, underscore, stamp, .pdf". */
  lemma OutputNameIsBasePlusStamp(name: string, stamp: string)
    ensures OutputName(name, stamp) == BaseName(name) + "_" + stamp + ".pdf"
  {
    if EndsWithIgnoreCase(name, ".pdf") {
      PdfSuffixShape(name);
      DropExtensionOfJoin(name[..|name| - 4], name[|name| - 3..]);
    } else {
      DropExtensionOfJoin(name, "pdf");
    }
  }

  /** The kept-row record for table row number `number` (1-based). */
  function Entry(row: TableRow, number: nat, stamp: string): KeptRow
    requires row.Row?
  {
    KeptRow(number, PageRange(row.start, row.end, OutputName(Strip(row.name), stamp)))
  }

  /** The rows that take part in the split, in table order, each with its output name. */
  function Kept(rows: seq<TableRow>, stamp: string): (ks: seq<KeptRow>)
    ensures |ks| <= |rows|
    ensures forall k :: 0 <= k < |ks| ==> 1 <= ks[k].rowNumber <= |rows|
  {
    if |rows| == 0 then []
    else
      var last := rows[|rows| - 1];
      Kept(rows[..|rows| - 1], stamp) + (if Skipped(last) then [] else [Entry(last, |rows|, stamp)])
  }

  function Ranges(ks: seq<KeptRow>): (rs: seq<PageRange>)
    ensures |rs| == |ks|
    ensures forall k :: 0 <= k < |ks| ==> rs[k] == ks[k].range
  {
    seq(|ks|, k requires 0 <= k < |ks| => ks[k].range)
  }

  /** The set of names already given out, as `used_names` holds them. */
  function NameSet(rs: seq<PageRange>): set<string> {
    set k | 0 <= k < |rs| :: rs[k].name
  }

  lemma RangesAppend(ks: seq<KeptRow>, e: KeptRow)
    ensures Ranges(ks + [e]) == Ranges(ks) + [e.range]
  {
  }

  lemma NameSetAppend(rs: seq<PageRange>, r: PageRange)
    ensures NameSet(rs + [r]) == NameSet(rs) + {r.name}
  {
    var a := NameSet(rs + [r]);
    var b := NameSet(rs) + {r.name};
    forall n | n in b ensures n in a {
      if n != r.name {
        var k :| 0 <= k < |rs| && rs[k].name == n;
        assert (rs + [r])[k] == rs[k];
      } else {
        assert (rs + [r])[|rs|] == r;
      }
    }
  }

  /** Pairwise distinct names and every start at most its end. */
  predicate Clean(ks: seq<KeptRow>) {
    && (forall a, b :: 0 <= a < b < |ks| ==> ks[a].range.name != ks[b].range.name)
    && (forall a :: 0 <= a < |ks| ==> ks[a].range.start <= ks[a].range.end)
  }

  lemma KeptStep(rows: seq<TableRow>, i: nat, stamp: string)
    requires i < |rows|
    ensures Kept(rows[..i + 1], stamp)
      == Kept(rows[..i], stamp) + (if Skipped(rows[i]) then [] else [Entry(rows[i], i + 1, stamp)])
  {
    assert rows[..i + 1][..i] == rows[..i];
  }

  lemma KeptPrefix(rows: seq<TableRow>, i: nat, stamp: string)
    requires i <= |rows|
    ensures Kept(rows[..i], stamp) <= Kept(rows, stamp)
  {
    var f := (s: seq<TableRow>) => Kept(s, stamp);
    forall j | 0 <= j < |rows|
      ensures f(rows[..j]) <= f(rows[..j + 1])
    {
      KeptGrows(rows, j, stamp);
    }
    PrefixMonotone(f, rows, i);
  }

  /** A function on prefixes that only ever appends keeps earlier results as prefixes of later ones. */
  lemma {:induction false} PrefixMonotone<T, U>(f: seq<T> -> seq<U>, xs: seq<T>, i: nat)
    requires i <= |xs|
    requires forall j :: 0 <= j < |xs| ==> f(xs[..j]) <= f(xs[..j + 1])
    ensures f(xs[..i]) <= f(xs)
    decreases |xs| - i
  {
    if i < |xs| {
      PrefixMonotone(f, xs, i + 1);
      PrefixTrans(f(xs[..i]), f(xs[..i + 1]), f(xs));
    } else {
      assert xs[..i] == xs;
    }
  }

  lemma KeptGrows(rows: seq<TableRow>, i: nat, stamp: string)
    requires i < |rows|
    ensures Kept(rows[..i], stamp) <= Kept(rows[..i + 1], stamp)
  {
    KeptStep(rows, i, stamp);
    PrefixOfAppend(Kept(rows[..i], stamp), if Skipped(rows[i]) then [] else [Entry(rows[i], i + 1, stamp)]);
  }

  lemma PrefixOfAppend<T>(a: seq<T>, b: seq<T>)
    ensures a <= a + b
  {
    assert (a + b)[..|a|] == a;
  }

  lemma PrefixTrans<T>(a: seq<T>, b: seq<T>, c: seq<T>)
    requires a <= b && b <= c
    ensures a <= c
  {
    assert c[..|a|] == c[..|b|][..|a|];
  }

  /** Row `i` is kept: its entry follows the rows kept before it in the whole table's list. */
  lemma KeptAt(rows: seq<TableRow>, i: nat, stamp: string)
    requires i < |rows| && !Skipped(rows[i])
    ensures var ks := Kept(rows, stamp); var m := |Kept(rows[..i], stamp)|;
      m < |ks| && ks[..m] == Kept(rows[..i], stamp) && ks[m] == Entry(rows[i], i + 1, stamp)
  {
    KeptPrefix(rows, i + 1, stamp);
    KeptStep(rows, i, stamp);
    var ks := Kept(rows, stamp);
    var m := |Kept(rows[..i], stamp)|;
    assert ks[..m + 1] == Kept(rows[..i + 1], stamp);
    assert ks[..m] == ks[..m + 1][..m];
  }

  lemma CleanPrefix(ks: seq<KeptRow>, m: nat)
    requires m <= |ks| && Clean(ks)
    ensures Clean(ks[..m])
  {
  }

  lemma CleanExtend(ks: seq<KeptRow>, e: KeptRow)
    requires Clean(ks) && e.range.start <= e.range.end
    requires e.range.name !in NameSet(Ranges(ks))
    ensures Clean(ks + [e])
  {
    var rs := Ranges(ks);
    forall a | 0 <= a < |ks|
      ensures ks[a].range.name != e.range.name
    {
      assert rs[a].name in NameSet(rs);
    }
  }

  /** The condition under which `split_pdf` reports a duplicate name `name`. */
  ghost predicate DuplicateAt(ks: seq<KeptRow>, name: string) {
    exists j, k :: 0 <= k < j < |ks| && Clean(ks[..j]) && ks[j].range.name == name && ks[k].range.name == name
  }

  /** The condition under which `split_pdf` reports a start after the end in row `number`. */
  ghost predicate StartAfterEndAt(ks: seq<KeptRow>, number: nat) {
    exists j :: 0 <= j < |ks| && Clean(ks[..j]) && ks[j].rowNumber == number
      && ks[j].range.start > ks[j].range.end
      && (forall k :: 0 <= k < j ==> ks[k].range.name != ks[j].range.name)
  }

  lemma DuplicateAbort(rows: seq<TableRow>, i: nat, stamp: string, k: nat)
    requires i < |rows| && !Skipped(rows[i])
    requires Clean(Kept(rows[..i], stamp))
    requires k < |Kept(rows[..i], stamp)|
    requires Kept(rows[..i], stamp)[k].range.name == Entry(rows[i], i + 1, stamp).range.name
    ensures DuplicateAt(Kept(rows, stamp), Entry(rows[i], i + 1, stamp).range.name)
    ensures !Clean(Kept(rows, stamp))
  {
    KeptAt(rows, i, stamp);
    var ks := Kept(rows, stamp);
    var m := |Kept(rows[..i], stamp)|;
    assert ks[k] == ks[..m][k];
    assert ks[m].range.name == ks[k].range.name;
  }

  lemma StartAfterEndAbort(rows: seq<TableRow>, i: nat, stamp: string)
    requires i < |rows| && !Skipped(rows[i]) && rows[i].start > rows[i].end
    requires Clean(Kept(rows[..i], stamp))
    requires Entry(rows[i], i + 1, stamp).range.name !in NameSet(Ranges(Kept(rows[..i], stamp)))
    ensures StartAfterEndAt(Kept(rows, stamp), i + 1)
    ensures !Clean(Kept(rows, stamp))
  {
    KeptAt(rows, i, stamp);
    var ks := Kept(rows, stamp);
    var before := Kept(rows[..i], stamp);
    var m := |before|;
    forall k | 0 <= k < m
      ensures ks[k].range.name != ks[m].range.name
    {
      assert ks[k] == before[k];
      assert Ranges(before)[k].name in NameSet(Ranges(before));
    }
  }

  /** A skipped row leaves the kept list unchanged. */
  lemma SkipStep(rows: seq<TableRow>, i: nat, stamp: string)
    requires i < |rows| && Skipped(rows[i])
    ensures Kept(rows[..i + 1], stamp) == Kept(rows[..i], stamp)
  {
    KeptStep(rows, i, stamp);
    assert Kept(rows[..i], stamp) + [] == Kept(rows[..i], stamp);
  }

  /** An accepted row extends the kept list, the ranges and the used names by its own entry. */
  lemma AcceptStep(rows: seq<TableRow>, i: nat, stamp: string, ranges: seq<PageRange>)
    requires i < |rows| && !Skipped(rows[i]) && rows[i].start <= rows[i].end
    requires Clean(Kept(rows[..i], stamp)) && ranges == Ranges(Kept(rows[..i], stamp))
    requires Entry(rows[i], i + 1, stamp).range.name !in NameSet(ranges)
    ensures Clean(Kept(rows[..i + 1], stamp))
    ensures Ranges(Kept(rows[..i + 1], stamp)) == ranges + [Entry(rows[i], i + 1, stamp).range]
    ensures NameSet(ranges + [Entry(rows[i], i + 1, stamp).range]) == NameSet(ranges) + {Entry(rows[i], i + 1, stamp).range.name}
  {
    var entry := Entry(rows[i], i + 1, stamp);
    KeptStep(rows, i, stamp);
    CleanExtend(Kept(rows[..i], stamp), entry);
    RangesAppend(Kept(rows[..i], stamp), entry);
    NameSetAppend(ranges, entry.range);
  }

  /**
   * The loop of `split_pdf` that reads the table. The first kept row whose
   * name was already used, or whose start exceeds its end, aborts the whole
   * operation; otherwise every kept row becomes a range, in table order.
   */
  method CollectRanges(pdfPath: string, stamp: string, rows: seq<TableRow>) returns (c: Collected)
    ensures pdfPath == "" ==> c == Rejected(NoPdfSelected)
    ensures c.Accepted? <==> pdfPath != "" && Clean(Kept(rows, stamp))
    ensures c.Accepted? ==> c.ranges == Ranges(Kept(rows, stamp))
    ensures c.Rejected? && c.error.DuplicateName? ==> DuplicateAt(Kept(rows, stamp), c.error.name)
    ensures c.Rejected? && c.error.StartAfterEnd? ==> StartAfterEndAt(Kept(rows, stamp), c.error.rowNumber)
    ensures c.Rejected? ==> (c.error.NoPdfSelected? <==> pdfPath == "")
  {
    if pdfPath == "" {
      return Rejected(NoPdfSelected);
    }
    var used: set<string> := {};
    var ranges: seq<PageRange> := [];
    var i := 0;
    while i < |rows|
      invariant 0 <= i <= |rows|
      invariant Clean(Kept(rows[..i], stamp))
      invariant ranges == Ranges(Kept(rows[..i], stamp))
      invariant used == NameSet(ranges)
    {
      var row := rows[i];
      if row.MissingWidgets? || Strip(row.name) == [] || row.end == 0 {
        SkipStep(rows, i, stamp);
      } else {
        var name := Strip(row.name);
        var out := OutputName(name, stamp);
        if out in used {
          var k :| 0 <= k < |ranges| && ranges[k].name == out;
          DuplicateAbort(rows, i, stamp, k);
          return Rejected(DuplicateName(out));
        }
        if row.start > row.end {
          StartAfterEndAbort(rows, i, stamp);
          return Rejected(StartAfterEnd(i + 1));
        }
        AcceptStep(rows, i, stamp, ranges);
        ranges := ranges + [PageRange(row.start, row.end, out)];
        used := used + {out};
      }
      i := i + 1;
    }
    assert rows[..i] == rows;
    return Accepted(ranges);
  }

  /**
   * The Tab rule of `handle_tab`: the start of the row to add after a row
   * whose end spin box shows `end`, or `None` when no row is added.
   * `total` is the loaded page count, 0 while unknown.
   */
  function NextRowStart(end: int, total: nat): (r: Option<int>)
    ensures r.Some? <==> end != 0 && (total == 0 || end < total)
    ensures r.Some? ==> r.value == end + 1 && (total != 0 ==> r.value <= total)
  {
    if end == 0 || (total != 0 && end >= total) then None
    else if total != 0 && end + 1 > total then None
    else Some(end + 1)
  }

  /** A freshly added row: the start spin set to `start`, the end spin at its minimum 1, no name. */
  function NewRow(start: int): TableRow {
    Row(SpinValue(start, SpinMin, SpinMax), SpinMin, "")
  }

  /** Tab pressed in the name field of row `i`: append a row after the last one when the rule allows. */
  function TabPressed(rows: seq<TableRow>, i: nat, total: nat): (r: seq<TableRow>)
    requires i < |rows| && rows[i].Row? && 0 <= rows[i].end
    ensures NextRowStart(rows[i].end, total).None? ==> r == rows
    ensures NextRowStart(rows[i].end, total).Some? ==>
      |r| == |rows| + 1 && r[..|rows|] == rows && r[|rows|].Row?
      && r[|rows|].start == Min(rows[i].end + 1, SpinMax) && r[|rows|].name == ""
  {
    match NextRowStart(rows[i].end, total)
    case None => rows
    case Some(start) => rows + [NewRow(start)]
  }

  /** The table shown when the panel opens and after a successful split. */
  function InitialTable(): seq<TableRow> {
    [NewRow(1)]
  }

  /** What `split_pdf` ends with: the error it shows, or the splitter's run. */
  datatype SplitOutcome<P> = Stopped(error: SplitError) | Ran(run: SplitRun<P>)

  /**
   * `split_pdf` as a whole: read the table, hand the ranges to
   * `split_pdf_by_ranges`, and reset the table to a single row starting at
   * page 1 when it reports success.
   */
  method SplitPdf<P>(pdfPath: string, stamp: string, rows: seq<TableRow>, doc: Option<seq<P>>, canWrite: string -> bool)
    returns (outcome: SplitOutcome<P>, table: seq<TableRow>)
    requires SpinValuesInRange(rows)
    ensures pdfPath == "" ==> outcome == Stopped(NoPdfSelected) && table == rows
    ensures outcome.Stopped? ==> table == rows
    ensures outcome.Ran? <==> pdfPath != "" && Clean(Kept(rows, stamp))
    ensures outcome.Stopped? && pdfPath != "" ==> outcome.error.DuplicateName? || outcome.error.StartAfterEnd?
    ensures outcome.Ran? ==>
      var ranges := Ranges(Kept(rows, stamp));
      && Clean(Kept(rows, stamp))
      && ValidStarts(ranges)
      && outcome.run == SplitPdfByRanges(doc, ranges, canWrite)
      && table == (if outcome.run.success then InitialTable() else rows)
  {
    var c := CollectRanges(pdfPath, stamp, rows);
    if c.Rejected? {
      return Stopped(c.error), rows;
    }
    KeptStarts(rows, stamp);
    var run := SplitPdfByRanges(doc, c.ranges, canWrite);
    outcome := Ran(run);
    table := if run.success then InitialTable() else rows;
  }

  /** Kept rows inherit the spin boxes' minimum, so every range starts at page 1 or later. */
  lemma {:induction false} KeptStarts(rows: seq<TableRow>, stamp: string)
    requires SpinValuesInRange(rows)
    ensures ValidStarts(Ranges(Kept(rows, stamp)))
  {
    if |rows| > 0 {
      KeptStarts(rows[..|rows| - 1], stamp);
    }
  }
}

=== FILE: text.dfy ===
/**
 * The few Python string operations the tool panels rely on: `str.strip()`,
 * `str.lower()`, `str.endswith()`, `str.rsplit('.', 1)[0]`, `str(n)`,
 * `f"{n:03d}"` and `", ".join(...)`, modelled on `seq<char>`.
 */
module PyText {
  import opened Optional

  /** The characters for which Python's `str.isspace()` holds; `str.strip()` removes exactly these. */
  predicate IsSpace(c: char) {
    c == ' ' || ('\t' <= c && c <= '\r') || ('\U{1c}' <= c && c <= '\U{1f}')
    || c == '\U{85}' || c == '\U{a0}' || c == '\U{1680}'
    || ('\U{2000}' <= c && c <= '\U{200a}') || c == '\U{2028}' || c == '\U{2029}'
    || c == '\U{202f}' || c == '\U{205f}' || c == '\U{3000}'
  }

  /** Number of whitespace characters at the front of `s`. */
  function LeadingSpaces(s: string): (k: nat)
    ensures k <= |s|
    ensures forall i :: 0 <= i < k ==> IsSpace(s[i])
    ensures k == |s| || !IsSpace(s[k])
  {
    if |s| == 0 || !IsSpace(s[0]) then 0 else 1 + LeadingSpaces(s[1..])
  }

  /** Number of whitespace characters at the back of `s`. */
  function TrailingSpaces(s: string): (k: nat)
    ensures k <= |s|
    ensures forall i :: |s| - k <= i < |s| ==> IsSpace(s[i])
    ensures k == |s| || !IsSpace(s[|s| - k - 1])
  {
    if |s| == 0 || !IsSpace(s[|s| - 1]) then 0 else 1 + TrailingSpaces(s[..|s| - 1])
  }

  /** Python's `s.strip()`. */
  function Strip(s: string): (r: string)
    ensures |r| <= |s|
    ensures r == [] || (!IsSpace(r[0]) && !IsSpace(r[|r| - 1]))
  {
    var t := s[LeadingSpaces(s)..];
    t[..|t| - TrailingSpaces(t)]
  }

  /** A stripped string is empty exactly when the original held only whitespace. */
  lemma StripEmptyIff(s: string)
    ensures Strip(s) == [] <==> forall i :: 0 <= i < |s| ==> IsSpace(s[i])
  {
    var k := LeadingSpaces(s);
    var t := s[k..];
    if k < |s| {
      assert !IsSpace(t[0]);
      assert TrailingSpaces(t) < |t|;
      assert Strip(s) != [];
    }
  }

  /** Stripping twice is stripping once. */
  lemma StripIdempotent(s: string)
    ensures Strip(Strip(s)) == Strip(s)
  {
    var r := Strip(s);
    if r != [] {
      assert LeadingSpaces(r) == 0;
      assert TrailingSpaces(r) == 0;
    }
  }

  /** Python's `c.lower()` for the ASCII letters; every other character is kept. */
  function LowerChar(c: char): char {
    if 'A' <= c && c <= 'Z' then (c as int + 32) as char else c
  }

  /** Python's `s.lower()` restricted to ASCII case mapping. */
  function Lower(s: string): (r: string)
    ensures |r| == |s|
    ensures forall i :: 0 <= i < |s| ==> r[i] == LowerChar(s[i])
  {
    seq(|s|, i requires 0 <= i < |s| => LowerChar(s[i]))
  }

  /** Python's `s.endswith(suffix)`. */
  predicate EndsWith(s: string, suffix: string) {
    |suffix| <= |s| && s[|s| - |suffix|..] == suffix
  }

  /** Python's `s.lower().endswith(suffix)` for a lower-case `suffix`. */
  predicate EndsWithIgnoreCase(s: string, suffix: string) {
    EndsWith(Lower(s), suffix)
  }

  /** A string ends with whatever was appended to it last. */
  lemma EndsWithAppend(a: string, b: string)
    ensures EndsWith(a + b, b)
  {
    assert (a + b)[|a|..] == b;
  }

  /** Equal strings with the same surroundings have equal middles. */
  lemma CancelMiddle(p: string, x: string, y: string, q: string, e: string)
    requires p + x + q + e == p + y + q + e
    ensures x == y
  {
    var s := p + x + q + e;
    var t := p + y + q + e;
    assert |x| == |y|;
    assert x == s[|p|..|p| + |x|];
    assert y == t[|p|..|p| + |y|];
  }

  /** Position of the last occurrence of `c` in `s`. */
  function LastIndexOf(s: string, c: char): (r: Option<nat>)
    ensures r.None? <==> c !in s
    ensures r.Some? ==> r.value < |s| && s[r.value] == c
    ensures r.Some? ==> forall i :: r.value < i < |s| ==> s[i] != c
  {
    if |s| == 0 then None
    else if s[|s| - 1] == c then Some(|s| - 1)
    else LastIndexOf(s[..|s| - 1], c)
  }

  /** Python's `s.rsplit('.', 1)[0]`: everything before the last dot, or all of `s` when it has none. */
  function DropExtension(s: string): (r: string)
    ensures '.' !in s ==> r == s
    ensures '.' in s ==> |r| < |s| && s[|r|] == '.' && r == s[..|r|] && '.' !in s[|r| + 1..]
  {
    match LastIndexOf(s, '.')
    case None => s
    case Some(i) => s[..i]
  }

  /** Removing the extension of `base + "." + ext` gives back `base` whenever `ext` holds no dot. */
  lemma DropExtensionOfJoin(base: string, ext: string)
    requires '.' !in ext
    ensures DropExtension(base + "." + ext) == base
  {
    var s := base + "." + ext;
    assert s[|base|] == '.';
    assert forall j :: |base| < j < |s| ==> s[j] == ext[j - |base| - 1];
    var i := LastIndexOf(s, '.').value;
    assert i == |base|;
  }

  // ---------------------------------------------------------------------------
  // Decimal numbers
  // ---------------------------------------------------------------------------

  predicate IsDigit(c: char) {
    '0' <= c && c <= '9'
  }

  predicate AllDigits(s: string) {
    forall i :: 0 <= i < |s| ==> IsDigit(s[i])
  }

  function DigitChar(d: nat): char
    requires d < 10
  {
    "0123456789"[d]
  }

  function DigitValue(c: char): nat
    requires IsDigit(c)
  {
    c as int - '0' as int
  }

  /** Python's `str(n)` for a natural number. */
  function Decimal(n: nat): (s: string)
    ensures 1 <= |s| && AllDigits(s)
  {
    if n < 10 then [DigitChar(n)] else Decimal(n / 10) + [DigitChar(n % 10)]
  }

  /** Python's `int(s)` on a string of digits. */
  function ParseDecimal(s: string): nat
    requires AllDigits(s)
  {
    if |s| == 0 then 0 else ParseDecimal(s[..|s| - 1]) * 10 + DigitValue(s[|s| - 1])
  }

  lemma {:induction false} DecimalRoundTrip(n: nat)
    ensures ParseDecimal(Decimal(n)) == n
  {
    if n >= 10 {
      var s := Decimal(n);
      assert s[..|s| - 1] == Decimal(n / 10);
      DecimalRoundTrip(n / 10);
    }
  }

  function Pow10(k: nat): nat {
    if k == 0 then 1 else 10 * Pow10(k - 1)
  }

  /** A number below `10^k` has at most `k` digits. */
  lemma {:induction false} DecimalLength(n: nat, k: nat)
    requires 1 <= k && n < Pow10(k)
    ensures |Decimal(n)| <= k
  {
    if n >= 10 {
      assert Pow10(1) == 10;
      DecimalLength(n / 10, k - 1);
    }
  }

  function Zeros(k: nat): (s: string)
    ensures |s| == k && AllDigits(s)
  {
    seq(k, i => '0')
  }

  lemma {:induction false} ParseZeros(k: nat)
    ensures ParseDecimal(Zeros(k)) == 0
  {
    if k > 0 {
      assert Zeros(k)[..k - 1] == Zeros(k - 1);
      ParseZeros(k - 1);
    }
  }

  /** Python's `f"{n:0{width}d}"`: `str(n)` padded on the left with zeros to at least `width` characters. */
  function ZeroPad(n: nat, width: nat): (s: string)
    ensures AllDigits(s)
  {
    var d := Decimal(n);
    (if |d| < width then Zeros(width - |d|) else "") + d
  }

  /** A zero-padded number reads back as the number, and is exactly `max(width, |str(n)|)` long. */
  lemma ZeroPadRoundTrip(n: nat, width: nat)
    ensures ParseDecimal(ZeroPad(n, width)) == n
    ensures |ZeroPad(n, width)| == Max(width, |Decimal(n)|)
  {
    var d := Decimal(n);
    var z := if |d| < width then Zeros(width - |d|) else "";
    assert ZeroPad(n, width) == z + d;
    LeadingZeros(z, d);
    DecimalRoundTrip(n);
  }

  /** Zeros in front of a digit string do not change its value. */
  lemma {:induction false} LeadingZeros(z: string, d: string)
    requires AllDigits(d) && z == Zeros(|z|)
    ensures ParseDecimal(z + d) == ParseDecimal(d)
    decreases |d|
  {
    if |d| == 0 {
      assert z + d == z;
      ParseZeros(|z|);
    } else {
      var zd := z + d;
      var d' := d[..|d| - 1];
      assert zd[..|zd| - 1] == z + d';
      assert zd[|zd| - 1] == d[|d| - 1];
      LeadingZeros(z, d');
    }
  }

  /** Zero padding never maps two numbers to the same text. */
  lemma ZeroPadInjective(a: nat, b: nat, width: nat)
    requires ZeroPad(a, width) == ZeroPad(b, width)
    ensures a == b
  {
    ZeroPadRoundTrip(a, width);
    ZeroPadRoundTrip(b, width);
  }

  // ---------------------------------------------------------------------------
  // Joining and reading back lists of numbers
  // ---------------------------------------------------------------------------

  /** Python's `sep.join(parts)`. */
  function Join(parts: seq<string>, sep: string): string {
    if |parts| == 0 then ""
    else if |parts| == 1 then parts[0]
    else parts[0] + sep + Join(parts[1..], sep)
  }

  /** `[str(n) for n in ns]`. */
  function Decimals(ns: seq<nat>): (r: seq<string>)
    ensures |r| == |ns|
    ensures forall i :: 0 <= i < |ns| ==> r[i] == Decimal(ns[i])
  {
    if |ns| == 0 then [] else [Decimal(ns[0])] + Decimals(ns[1..])
  }

  /** Length of the run of digits at the front of `s`. */
  function DigitRun(s: string): (k: nat)
    ensures k <= |s| && AllDigits(s[..k])
    ensures k == |s| || !IsDigit(s[k])
  {
    if |s| == 0 || !IsDigit(s[0]) then 0 else 1 + DigitRun(s[1..])
  }

  /**
   * The numbers a reader sees in `s`: the value of every maximal run of
   * digits, left to right. It is the reference reading of the summary
   * strings the tool panels display.
   */
  function Numbers(s: string): seq<nat>
    decreases |s|
  {
    if |s| == 0 then []
    else if !IsDigit(s[0]) then Numbers(s[1..])
    else
      var k := DigitRun(s);
      [ParseDecimal(s[..k])] + Numbers(s[k..])
  }

  lemma {:induction false} DigitRunAppend(a: string, b: string)
    requires a != []
    requires b == [] || !IsDigit(a[|a| - 1]) || !IsDigit(b[0])
    ensures DigitRun(a + b) == DigitRun(a)
    decreases |a|
  {
    if IsDigit(a[0]) {
      assert (a + b)[1..] == a[1..] + b;
      if |a| > 1 {
        DigitRunAppend(a[1..], b);
      } else {
        assert a[1..] + b == b;
      }
    }
  }

  /** Reading numbers is compositional across a boundary that does not split a digit run. */
  lemma {:induction false} NumbersAppend(a: string, b: string)
    requires a == [] || b == [] || !IsDigit(a[|a| - 1]) || !IsDigit(b[0])
    ensures Numbers(a + b) == Numbers(a) + Numbers(b)
    decreases |a|
  {
    if |a| == 0 {
      assert a + b == b;
    } else if b == [] {
      assert a + b == a;
    } else if !IsDigit(a[0]) {
      assert (a + b)[1..] == a[1..] + b;
      NumbersAppend(a[1..], b);
    } else {
      var k := DigitRun(a);
      DigitRunAppend(a, b);
      NumbersAfterRun(a, b, k);
      if k < |a| {
        assert a[k..][|a[k..]| - 1] == a[|a| - 1];
        NumbersAppend(a[k..], b);
      } else {
        assert a[k..] + b == b;
      }
    }
  }

  /** One unfolding of `Numbers` at a leading run of `k` digits, before and after appending `b`. */
  lemma NumbersAfterRun(a: string, b: string, k: nat)
    requires a != [] && IsDigit(a[0]) && k == DigitRun(a) && DigitRun(a + b) == k
    ensures Numbers(a) == [ParseDecimal(a[..k])] + Numbers(a[k..])
    ensures Numbers(a + b) == [ParseDecimal(a[..k])] + Numbers(a[k..] + b)
  {
    assert (a + b)[0] == a[0];
    assert (a + b)[..k] == a[..k];
    assert (a + b)[k..] == a[k..] + b;
  }

  lemma {:induction false} NumbersNoDigits(s: string)
    requires NonDigits(s)
    ensures Numbers(s) == []
    decreases |s|
  {
    if |s| > 0 {
      NumbersNoDigits(s[1..]);
    }
  }

  /** Reading the text of a number gives back the number. */
  lemma NumbersOfDecimal(n: nat)
    ensures Numbers(Decimal(n)) == [n]
  {
    var s := Decimal(n);
    assert DigitRun(s) == |s|;
    assert s[..|s|] == s;
    assert s[|s|..] == [];
    DecimalRoundTrip(n);
  }

  /** Text without digits, such as the fixed words of a label. */
  predicate NonDigits(s: string) {
    forall i :: 0 <= i < |s| ==> !IsDigit(s[i])
  }

  /** Reading `a + b + c` when `b` sits between a non-digit and a non-digit. */
  lemma Sandwich(a: string, b: string, c: string)
    requires a == [] || !IsDigit(a[|a| - 1])
    requires c == [] || !IsDigit(c[0])
    ensures Numbers(a + b + c) == Numbers(a) + Numbers(b) + Numbers(c)
  {
    NumbersAppend(b, c);
    NumbersAppend(a, b + c);
    AppendAssoc(a, b, c);
    AppendAssoc(Numbers(a), Numbers(b), Numbers(c));
  }

  lemma AppendAssoc<T>(x: seq<T>, y: seq<T>, z: seq<T>)
    ensures x + y + z == x + (y + z)
  {
  }

  /** A number between two runs of words reads back as that number alone. */
  lemma NumberBetween(p: string, n: nat, q: string)
    requires NonDigits(p) && NonDigits(q)
    ensures Numbers(p + Decimal(n) + q) == [n]
  {
    NumbersNoDigits(p);
    NumbersNoDigits(q);
    NumbersOfDecimal(n);
    Sandwich(p, Decimal(n), q);
  }

  /** Words, then any text: the numbers are those of the text. */
  lemma AfterWords(p: string, t: string)
    requires NonDigits(p) && p != []
    ensures Numbers(p + t) == Numbers(t)
  {
    NumbersNoDigits(p);
    NumbersAppend(p, t);
  }

  /** Text, then words, a number and words: the text's numbers followed by that number. */
  lemma WithTrailer(t: string, p: string, n: nat, q: string)
    requires NonDigits(p) && NonDigits(q) && p != []
    ensures Numbers(t + p + Decimal(n) + q) == Numbers(t) + [n]
  {
    NumberBetween(p, n, q);
    NumbersAppend(t, p + Decimal(n) + q);
    assert t + p + Decimal(n) + q == t + (p + Decimal(n) + q);
  }

  /** A number, then words, then any text: the number followed by the text's numbers. */
  lemma LeadNumber(n: nat, p: string, t: string)
    requires NonDigits(p) && p != []
    ensures Numbers(Decimal(n) + p + t) == [n] + Numbers(t)
  {
    AppendAssoc(Decimal(n), p, t);
    NumbersAppend(Decimal(n), p + t);
    NumbersOfDecimal(n);
    AfterWords(p, t);
  }

  /** `", ".join(str(n) for n in ns)` reads back as `ns`. */
  lemma NumbersOfJoin(ns: seq<nat>)
    ensures Numbers(Join(Decimals(ns), ", ")) == ns
  {
    NumbersOfJoinWith(ns, ", ");
  }

  /** Numbers joined by any separator without digits read back as the numbers. */
  lemma {:induction false} NumbersOfJoinWith(ns: seq<nat>, sep: string)
    requires NonDigits(sep) && sep != []
    ensures Numbers(Join(Decimals(ns), sep)) == ns
    decreases |ns|
  {
    if |ns| == 1 {
      NumbersOfDecimal(ns[0]);
    } else if |ns| > 1 {
      NumbersOfJoinWith(ns[1..], sep);
      var ds := Decimals(ns);
      assert ds[1..] == Decimals(ns[1..]);
      LeadNumber(ns[0], sep, Join(ds[1..], sep));
      assert [ns[0]] + ns[1..] == ns;
    }
  }
}

/** Qt's `QDate.toString("ddMMyyyy")`, the date stamp both splitters put into output names. */
module DateFormat {
  import opened PyText

  /** A calendar date as a `QDateEdit` holds it. */
  datatype Date = Date(day: nat, month: nat, year: nat)

  /** A date a `QDateEdit` can hold: its years run from 1752 to 9999. */
  predicate ValidDate(d: Date) {
    1 <= d.day <= 31 && 1 <= d.month <= 12 && 1752 <= d.year <= 9999
  }

  /** Two-digit day, two-digit month, four-digit year. */
  function DdMMyyyy(d: Date): (s: string)
    ensures AllDigits(s)
    ensures '.' !in s
  {
    ZeroPad(d.day, 2) + ZeroPad(d.month, 2) + ZeroPad(d.year, 4)
  }

  /** The stamp of a valid date reads back as its day, month and year. */
  lemma DdMMyyyyRoundTrip(d: Date)
    requires ValidDate(d)
    ensures |DdMMyyyy(d)| == 8
    ensures var s := DdMMyyyy(d);
      ParseDecimal(s[..2]) == d.day && ParseDecimal(s[2..4]) == d.month && ParseDecimal(s[4..]) == d.year
  {
    var s := DdMMyyyy(d);
    ZeroPadRoundTrip(d.day, 2);
    ZeroPadRoundTrip(d.month, 2);
    ZeroPadRoundTrip(d.year, 4);
    assert Pow10(2) == 100 && Pow10(4) == 10000 by {
      assert Pow10(1) == 10;
      assert Pow10(3) == 1000;
    }
    DecimalLength(d.day, 2);
    DecimalLength(d.month, 2);
    DecimalLength(d.year, 4);
    assert s[..2] == ZeroPad(d.day, 2);
    assert s[2..4] == ZeroPad(d.month, 2);
    assert s[4..] == ZeroPad(d.year, 4);
  }
}
